=== FILE: README.md ===
# Product recommendation engine — a verified model

This project models the core of a small product recommender for an
electronics catalog. The catalog holds products with an id (`asin`) and a
cleaned title (`title_clean`). The review log holds entries of the form
(product, reviewer, star rating).

The engine offers three strategies:

- **content-based**: other products are ranked by the share of title words
  they have in common with the reference product;
- **collaborative**: other products are ranked by how often the reviewers
  who liked the reference (rating 4 or more) also liked them, normalised by
  the number of such likes;
- **hybrid**: both lists are asked for at twice the limit. Content scores
  are weighted 0.6 and collaborative scores 0.4, and reasons are joined with
  `" | "`.

A facade checks the reference id and dispatches on the method name, with
hybrid as the fallback. A separate helper picks a sample of the catalog for
the start page.

The data-cleaning script that produces `title_clean` is also modelled. It
contributes three parts: `clean_text`, the loop that keeps reviews with a
rating in [1, 5], and the filter that keeps reviews of catalogued products.

Modules:

- `Wrappers`: Option and Result.
- `Text`: ASCII lower-casing, JavaScript `split`/`join` on one separator,
  decimal rendering and `substring(0, n)`.
- `Seqs`: subsequences, filter and first-occurrence dedup.
- `Ranking`: `slice(0, limit)` with JavaScript's treatment of negative
  limits, and a stable descending sort.
- `Catalog`: records and `getProductById`.
- `ContentBased`, `Collaborative`, `Hybrid`, `Engine`: the engine.
- `CleanData`: the cleaning script.

Pure computations are functions. The two nested `forEach` loops that fill
the collaborative counter are methods with loops, and so are the two loops
that fill the hybrid board and the review-validity loop. Each such method is
proved equal to the function that specifies it. The insertion-ordered
JavaScript objects (`productScores`, `combinedScores`) are modelled as a
sequence of keys in insertion order plus a map.

Where the code differs from its documentation, the model follows the code:

- Titles are split on a single space `" "`, not on whitespace. Two adjacent
  spaces give an empty word.
- The shared words keep the reference title's duplicates and order. They
  are not a set.
- A reviewer who liked the reference twice counts twice among the likers.
- The collaborative score is not bounded by 1 (`Collaborative.ScoreAboveOne`).
- The collaborative reason appends `"..."` whatever the title's length.
- Two empty titles share the word `""` and score 1 (`ContentBased.EmptyTitlesMatch`).

## Model

| member | source | states |
|---|---|---|
| Catalog.GetProductById | recommendation-system/backend/recommendation-engine.js:34-36 | None exactly when no product has the id; otherwise the product is the first one in catalog order with that id |
| ContentBased.Words | recommendation-system/backend/recommendation-engine.js:43-44 | a lower-cased title split on single spaces always has at least one word |
| ContentBased.WordsJoin | recommendation-system/backend/recommendation-engine.js:43-44 | joining the words with " " gives the lower-cased title back |
| Text.JoinSplit | recommendation-system/backend/recommendation-engine.js:44 | `split(sep)` followed by `join(sep)` is the identity |
| Text.Split | recommendation-system/backend/recommendation-engine.js:44 | `split(sep)` returns at least one piece, and no piece contains the separator |
| Text.NatToString | recommendation-system/backend/recommendation-engine.js:65 | the rendering of a count is a non-empty string of decimal digits with no leading zero unless it is "0" |
| Text.Lower | recommendation-system/backend/recommendation-engine.js:43 | `toLowerCase()` keeps the length and maps each character through `LowerChar`, which lower-cases ASCII capitals and leaves every other character alone |
| Text.Prefix | recommendation-system/backend/recommendation-engine.js:111-114 | `substring(0, n)` returns a prefix of the string of length n, or the whole string when it is shorter |
| Text.NatToStringValue | recommendation-system/backend/recommendation-engine.js:65 | the decimal rendering of a count in the reason template reads back as that count |
| ContentBased.CommonWords | recommendation-system/backend/recommendation-engine.js:54-56 | the shared words are a subsequence of the reference words, and each word occurs as often as in the reference when the candidate has it, else not at all |
| ContentBased.Similarity | recommendation-system/backend/recommendation-engine.js:58-60 | the similarity lies in [0, 1] and is positive iff some reference word occurs in the candidate title |
| ContentBased.SharedWordExists | recommendation-system/backend/recommendation-engine.js:54-56 | there are shared words iff some reference word occurs among the candidate's words |
| ContentBased.CandidatesInOrder | recommendation-system/backend/recommendation-engine.js:47-48 | the candidates' products are a subsequence of the catalog |
| ContentBased.CandidatesComplete | recommendation-system/backend/recommendation-engine.js:47-69 | every product with another id gets its scored entry among the candidates |
| ContentBased.PoolEntries | recommendation-system/backend/recommendation-engine.js:47-70 | every pooled entry is a catalog product other than the reference, scored by its similarity, in (0, 1] |
| ContentBased.ContentBasedRecommendations | recommendation-system/backend/recommendation-engine.js:39-75 | an unknown id gives []; otherwise no entry is the reference, every score is in (0, 1], the list is in non-increasing score order, and every pooled entry the slice drops scores no more than each entry kept |
| ContentBased.ContentBasedSpec | recommendation-system/backend/recommendation-engine.js:39-75 | for a known id the pool's products are exactly the catalog filtered to other ids with a positive similarity, in catalog order and with repeats; the result is as long as `slice(0, limit)` of the pool, drawn from it, each entry with its similarity and shared-word reason, ties keep catalog order, and every pool entry the slice drops scores no more than each entry kept |
| ContentBased.PoolProducts | recommendation-system/backend/recommendation-engine.js:47-70 | the pool's products are the catalog filtered, in order and with repeats, to products with another id and a positive similarity |
| ContentBased.EmptyTitlesMatch | recommendation-system/backend/recommendation-engine.js:43-60 | two empty titles each split into [""] and have similarity 1 |
| Ranking.RankProperties | recommendation-system/backend/recommendation-engine.js:71-72 | sort-then-slice yields SliceEnd(n, limit) entries, a sub-multiset of the input, sorted non-increasingly, for every score the entries with that score keep their input order, and every entry the slice drops scores no more than each entry kept (the top of the list) |
| Ranking.SortStable | recommendation-system/backend/recommendation-engine.js:71 | for every score, the sort keeps the order of the entries with that score |
| Ranking.RankedDistinct | recommendation-system/backend/recommendation-engine.js:118-119 | ranking a list without repeated keys leaves no repeated keys |
| Ranking.SortTies | recommendation-system/backend/recommendation-engine.js:157 | if, among equal scores, entries with a property precede those without it, the sort keeps that so |
| Ranking.SliceEnd | recommendation-system/backend/recommendation-engine.js:72 | the end index `slice(0, limit)` uses: never past the length; for a non-negative limit, the limit unless the array is shorter; for a negative limit, the length minus the limit's magnitude, or 0 when that is not positive |
| Ranking.Take | recommendation-system/backend/recommendation-engine.js:72 | `slice(0, limit)` returns the prefix of the array whose length `SliceEnd` gives |
| Ranking.SortByScore | recommendation-system/backend/recommendation-engine.js:71 | the sort returns a permutation of its input in non-increasing score order |
| Ranking.RankedTop | recommendation-system/backend/recommendation-engine.js:71-72 | every entry `slice(0, limit)` drops after the sort scores no more than each entry it keeps |
| Collaborative.LikersCount | recommendation-system/backend/recommendation-engine.js:80-82 | each reviewer occurs among the likers once per review in which they rated the product 4 or more |
| Collaborative.TalliedCounts | recommendation-system/backend/recommendation-engine.js:94-97 | the counter has a key exactly for each voted product, and its value is the number of votes |
| Collaborative.TalliedOrder | recommendation-system/backend/recommendation-engine.js:94-96 | the counter's keys are in the order of each product's first vote |
| Collaborative.ScanCount | recommendation-system/backend/recommendation-engine.js:89-100 | the number of votes the nested loops give another product is the sum, over the likers, of that liker's likes of it |
| Collaborative.ScanSkipsReference | recommendation-system/backend/recommendation-engine.js:93 | the reference product never receives a vote |
| Collaborative.CountVotes | recommendation-system/backend/recommendation-engine.js:92-99 | the inner loop leaves the counter equal to the counter of all earlier votes followed by this reviewer's votes |
| Collaborative.CollaborativeRecommendations | recommendation-system/backend/recommendation-engine.js:78-122 | the method with its nested loops returns exactly the collaborative list |
| Collaborative.Collaborative | recommendation-system/backend/recommendation-engine.js:78-122 | no likers gives []; a non-negative limit bounds the length; the list is in non-increasing score order; every pool entry the slice drops scores no more than each entry kept |
| Collaborative.CollabPoolSpec | recommendation-system/backend/recommendation-engine.js:103-117 | the pool holds exactly the voted-for catalogued products other than the reference, each with score votes / likes and the count-and-title reason, in first-vote order |
| Collaborative.CollaborativeSpec | recommendation-system/backend/recommendation-engine.js:78-122 | the result has SliceEnd(pool, limit) entries drawn from the pool, each a catalog product other than the reference with score votes / likes and its reason, no id twice, ties in first-vote order, and every pool entry the slice drops scores no more than each entry kept |
| Collaborative.CollaborativeDistinct | recommendation-system/backend/recommendation-engine.js:103-119 | no product id occurs twice in the collaborative list |
| Collaborative.ScoreAboveOne | recommendation-system/backend/recommendation-engine.js:110 | one liker who liked the candidate twice gives it score 2.0 |
| Collaborative.CollaborativeAsWritten | recommendation-system/backend/recommendation-engine.js:78-122 | as written, the method returns [] when nobody liked the reference, and otherwise either raises the undefined-`targetProduct` error or returns [] |
| Collaborative.ResolveAsWrittenFails | recommendation-system/backend/recommendation-engine.js:103-117 | the as-written map raises iff the corrected map resolves at least one id |
| Collaborative.AsWrittenRaises | recommendation-system/backend/recommendation-engine.js:111 | as written, the method raises exactly when the corrected pool is non-empty, and otherwise returns the corrected (empty) list |
| Collaborative.UndefinedTargetExample | recommendation-system/backend/recommendation-engine.js:111 | a catalog of two products liked by one reviewer makes the as-written method raise, while the corrected one recommends the other product with score 1 |
| Hybrid.SeedBoard | recommendation-system/backend/recommendation-engine.js:133-139 | the first loop builds the board that the fold over the content list specifies |
| Hybrid.MergeBoard | recommendation-system/backend/recommendation-engine.js:142-153 | the second loop builds the board that the fold over the collaborative list specifies |
| Hybrid.HybridRecommendations | recommendation-system/backend/recommendation-engine.js:125-164 | the method returns exactly the hybrid list |
| Hybrid.Hybrid | recommendation-system/backend/recommendation-engine.js:125-164 | a non-negative limit bounds the length; the list is in non-increasing score order; every board entry whose id the list leaves out scores no more than each listed entry |
| Hybrid.FinishedTop | recommendation-system/backend/recommendation-engine.js:156-163 | after sort, slice and the final `map`, every board entry left out scores no more than each listed entry |
| Hybrid.CombineOrder | recommendation-system/backend/recommendation-engine.js:130-153 | the board's keys are the ids of the content list followed by those of the collaborative list, each at its first occurrence |
| Hybrid.CombineEntries | recommendation-system/backend/recommendation-engine.js:133-153 | each board entry is 0.6 × content score and/or 0.4 × collaborative score, with the content reason before the collaborative one |
| Hybrid.HybridLength | recommendation-system/backend/recommendation-engine.js:155-158 | the result has SliceEnd(number of distinct merged ids, limit) entries and names no product twice |
| Hybrid.HybridEntries | recommendation-system/backend/recommendation-engine.js:155-163 | every entry's id comes from one of the two lists, and its product, weighted score and " \| "-joined reasons are the ones Expected gives for that id |
| Hybrid.HybridStable | recommendation-system/backend/recommendation-engine.js:130-158 | the board's keys are the content ids followed by the new collaborative ids; the hybrid list is the final `map` of the ranked board; and for every score, the ranked entries with that score are the first board entries with that score, in key order |
| Hybrid.HybridTies | recommendation-system/backend/recommendation-engine.js:156-158 | a consequence of the stable order: among equal scores, products the content list recommended come before products only the collaborative list recommended |
| Hybrid.HybridReasons | recommendation-system/backend/recommendation-engine.js:133-162 | every hybrid entry's id comes from one of the lists; an id only one list recommends gets that list's reason, and an id both recommend gets the content reason, " \| ", then the collaborative reason, each from the last entry for that id in its list |
| Hybrid.ExpectedReason | recommendation-system/backend/recommendation-engine.js:133-162 | the joined reasons of the entry promised for an id are the content reason, the collaborative reason, or both joined by " \| ", according to which lists recommend the id |
| Engine.DisplayName | recommendation-system/backend/recommendation-engine.js:170-173 | a title of at most 50 characters is kept; a longer one becomes its first 50 characters followed by "..." |
| Engine.GetSampleProducts | recommendation-system/backend/recommendation-engine.js:167-175 | there are SliceEnd(catalog, limit) samples, and sample i has product i's id and display name |
| Engine.GetRecommendations | recommendation-system/backend/recommendation-engine.js:178-194 | an unknown id fails with the not-found message followed by the id; otherwise the result is "content", "collaborative" or, for any other name, the hybrid list |
| Engine.RecommendationsExcludeReference | recommendation-system/backend/recommendation-engine.js:178-194 | for a known id, every strategy returns at most limit entries and never the reference product |
| CleanData.CleanText | recommendation-system/docs/step4_clean_data.py:8-15 | a non-string gives ""; otherwise the result keeps, in order and multiplicity, exactly the letters, digits and `\s` characters of the lower-cased text, and none of them is a capital |
| CleanData.CleanTextIdempotent | recommendation-system/docs/step4_clean_data.py:8-15 | cleaning a cleaned text changes nothing |
| CleanData.CleanTitleIsLower | recommendation-system/docs/step4_clean_data.py:13-14 | lower-casing a cleaned title changes nothing, so the engine's ASCII `toLowerCase` is exact on it |
| CleanData.KeepValidReviews | recommendation-system/docs/step4_clean_data.py:40-48 | the loop keeps exactly the filter of reviews that have an `overall` in [1, 5] |
| CleanData.ValidReviewsSpec | recommendation-system/docs/step4_clean_data.py:47-48 | the kept reviews are in file order, a review is kept iff it has a valid rating, and a valid review is kept as often as it occurs |
| CleanData.CatalogAsins | recommendation-system/docs/step4_clean_data.py:54 | the set holds exactly the ids of the metadata lines |
| CleanData.KeepCatalogued | recommendation-system/docs/step4_clean_data.py:54-55 | the kept reviews are in order, each names a product of the metadata, and every review that does is kept, as often as it occurs in the input |

## Left out

- `initialize` and its `fetch`/`json()` calls, the `initialized` flag and the console messages are left out. The catalog and the review log are parameters, so there is no engine object with changing fields. A failed load, which the source only logs, is not modelled.
- The global instance and the browser export at the end of the engine file, and the whole front end (`frontend/app.js`), are not part of this model.
- `getRecommendations` is `async`. Only what it computes after the data is loaded is modelled.
- Scores are exact reals, not IEEE doubles. Rounding in `score * 0.6` or `count / likes` is not modelled, and neither is NaN.
- The sort comparator `b.score - a.score` is modelled as a stable sort on descending score. This matches the stable `Array.prototype.sort` of current engines.
- JavaScript objects enumerate keys that are canonical array indices (all digits, no leading zero, below 2^32 - 1, such as `"1400501466"` but not `"0594451647"`) first, in ascending numeric order, and then the other keys in insertion order. The model keeps every key in insertion order, so it does not capture how such ids reorder the vote counter and the hybrid board, nor the tie order that follows from that. Keys such as `__proto__` are not modelled either.
- Records are assumed well-formed: every product has `asin` and `title_clean`, and every review has a numeric `overall`. JavaScript coercions on missing or non-numeric fields are not modelled.
- Text.Lower lower-cases ASCII capitals only. Engine titles come from `clean_text`, which leaves no other letters (`CleanData.CleanTitleIsLower`), so this is exact on cleaned data.
- `substring(0, n)` counts UTF-16 code units in JavaScript. The model counts characters, which agree on cleaned titles.
- CleanData.LowerPy models Python's `str.lower` only as far as the following regex can see it. It maps ASCII capitals, U+0130 and U+212A, and keeps every other character; the lowercase of any other character is deleted by the regex anyway.
- The cleaning script's file reading, the caps of 5000 products and 10000 reviews, the `title_clean`/`description_clean` assignments, the prints and the CSV output are I/O and are not modelled. Only `clean_text` and the two filters are.
- KeepCatalogued: the pandas `KeyError` is not modelled. It happens when the metadata or the valid reviews are empty (`pd.DataFrame([])` has no `asin` column, so `meta_df['asin']` at step4_clean_data.py:54 or `reviews_df['asin']` at :55 raises), or when no record has an `asin`. The model returns `[]` in those cases.
- CleanData.HasValidRating: a JSON `true` as `overall` (which Python compares as 1) and non-numeric ratings are not modelled. A rating is either absent or a number.

## Findings

| source | as written | input that shows it | evidently intended | confidence | as-written member | corrected member |
|---|---|---|---|---|---|---|
| recommendation-system/backend/recommendation-engine.js:111 | the collaborative reason reads `targetProduct.title_clean`, but `targetProduct` is not declared in `collaborativeRecommendations`, so building any entry throws a ReferenceError | catalog [A "red shoes", B "red hat"], reviews [(A, u1, 5), (B, u1, 5)], reference A | the reason quotes the reference product's cleaned title, as the content-based strategy's own `targetProduct` does | high, not executed | Collaborative.CollaborativeAsWritten, Collaborative.UndefinedTargetExample, Collaborative.AsWrittenRaises | Collaborative.Collaborative |

As written, the exception also reaches the hybrid strategy and the default
`getRecommendations` call whenever the collaborative pool is non-empty. The
corrected function takes the reference title as a parameter. The hybrid
strategy and the facade pass it the title of the product `getProductById`
finds.

=== FILE: catalog.dfy ===
/**
 * The records the engine works on (products and reviews, as loaded from
 * products.json and reviews.json) and the entries it returns, together with
 * the catalog lookup `getProductById`.
 */
module Catalog {
  import opened Wrappers

  /** A catalog product: its id and its cleaned title. */
  datatype Product = Product(asin: string, titleClean: string)

  /** One review: the product reviewed, who wrote it, and the star rating. */
  datatype Review = Review(asin: string, reviewerId: string, overall: real)

  /** One entry of a recommendation list. */
  datatype Recommendation = Recommendation(product: Product, score: real, reason: string)

  /** Reviews rated 4 or more count as "liked". */
  const LikedThreshold: real := 4.0

  function RecScore(r: Recommendation): real { r.score }

  /** The product id of an entry. */
  function ProductId(e: Recommendation): string { e.product.asin }

  /** The product ids of a list of entries, in order. */
  function Asins(recs: seq<Recommendation>): (ids: seq<string>)
    ensures |ids| == |recs|
    ensures forall i :: 0 <= i < |recs| ==> ids[i] == recs[i].product.asin
  {
    seq(|recs|, i requires 0 <= i < |recs| => ProductId(recs[i]))
  }

  /** `products.find(p => p.asin === productId)`: the first product with that id, if any. */
  function GetProductById(products: seq<Product>, productId: string): (r: Option<Product>)
    ensures r.None? <==> forall i :: 0 <= i < |products| ==> products[i].asin != productId
    ensures r.Some? ==> exists i :: 0 <= i < |products| && products[i] == r.value
                         && r.value.asin == productId
                         && forall k :: 0 <= k < i ==> products[k].asin != productId
  {
    if products == [] then None
    else if products[0].asin == productId then Some(products[0])
    else
      var r := GetProductById(products[1..], productId);
      assert r.Some? ==> exists i :: 1 <= i < |products| && products[i] == r.value
                           && forall k :: 0 <= k < i ==> products[k].asin != productId by {
        if r.Some? {
          var i :| 0 <= i < |products[1..]| && products[1..][i] == r.value
                   && forall k :: 0 <= k < i ==> products[1..][k].asin != productId;
          assert products[i + 1] == r.value;
          forall k | 0 <= k < i + 1 ensures products[k].asin != productId {
            if k > 0 { assert products[k] == products[1..][k - 1]; }
          }
        }
      }
      r
  }
}

=== FILE: clean_data.dfy ===
/**
 * The cleaning step that prepares the engine's data: `clean_text`, which
 * produces the `title_clean` field the content-based strategy splits into
 * words, the loop that keeps reviews with a valid star rating, and the filter
 * that keeps reviews of catalogued products.
 */
module CleanData {
  import opened Wrappers
  import opened Text
  import opened Seqs

  /** A JSON value as `clean_text` receives it: a string, or anything else. */
  datatype Field = Str(s: string) | NotStr

  predicate IsAsciiLetter(c: char) { 'a' <= c <= 'z' || 'A' <= c <= 'Z' }

  predicate IsDigit(c: char) { '0' <= c <= '9' }

  /** The characters Python's `\s` matches in a `str` pattern (those for which `str.isspace()` holds). */
  predicate IsSpace(c: char)
  {
    || '\t' <= c <= '\r'
    || '\U{1C}' <= c <= ' '
    || c == '\U{85}' || c == '\U{A0}' || c == '\U{1680}'
    || '\U{2000}' <= c <= '\U{200A}'
    || c == '\U{2028}' || c == '\U{2029}' || c == '\U{202F}' || c == '\U{205F}' || c == '\U{3000}'
  }

  /** The characters that `re.sub(r'[^a-zA-Z0-9\s]', '', text)` leaves in place. */
  predicate Allowed(c: char) { IsAsciiLetter(c) || IsDigit(c) || IsSpace(c) }

  /** Two characters outside ASCII whose lowercase holds an ASCII letter. */
  const CapitalIWithDot: char := '\U{130}'
  const KelvinSign: char := '\U{212A}'
  const CombiningDot: char := '\U{307}'

  /**
   * `str.lower()` on one character, as far as the regex can see it: ASCII
   * capitals and the two characters above map as Python maps them; every
   * other character is kept, since its lowercase is the character itself or
   * consists of characters the regex deletes anyway.
   */
  function LowerPy(c: char): (r: string)
    ensures |r| >= 1
  {
    if IsUpper(c) then [LowerChar(c)]
    else if c == CapitalIWithDot then ['i', CombiningDot]
    else if c == KelvinSign then ['k']
    else [c]
  }

  /** `text.lower()`, character by character. */
  function LowerAll(s: string): (r: string)
    ensures |r| >= |s|
  {
    if s == [] then [] else LowerPy(s[0]) + LowerAll(s[1..])
  }

  /** `clean_text(text)`: "" for a non-string, otherwise the lowercased text with disallowed characters deleted. */
  function CleanText(text: Field): (r: string)
    ensures text.NotStr? ==> r == ""
    ensures forall i :: 0 <= i < |r| ==> Allowed(r[i]) && !IsUpper(r[i])
    ensures text.Str? ==> IsSubsequence(r, LowerAll(text.s))
    ensures text.Str? ==> forall c :: multiset(r)[c] == if Allowed(c) then multiset(LowerAll(text.s))[c] else 0
  {
    match text
    case NotStr => ""
    case Str(s) =>
      var r := Filter(LowerAll(s), Allowed);
      FilterSpec(LowerAll(s), Allowed);
      NoUpperAfterLower(s);
      forall i | 0 <= i < |r| ensures Allowed(r[i]) && !IsUpper(r[i]) {
        SubsequenceIn(r, LowerAll(s), i);
        assert r[i] in multiset(r);
      }
      r
  }

  /** Lowering leaves no ASCII capital behind. */
  lemma {:induction false} NoUpperAfterLower(s: string)
    ensures forall c :: c in LowerAll(s) ==> !IsUpper(c)
  {
    if s != [] {
      NoUpperAfterLower(s[1..]);
    }
  }

  /** Lowering a string that has no capitals and none of the two special characters changes nothing. */
  lemma {:induction false} LowerAllFixed(s: string)
    requires forall i :: 0 <= i < |s| ==> Allowed(s[i]) && !IsUpper(s[i])
    ensures LowerAll(s) == s
  {
    if s != [] {
      LowerAllFixed(s[1..]);
      assert s[0] != CapitalIWithDot && s[0] != KelvinSign;
      assert s == [s[0]] + s[1..];
    }
  }

  /** Filtering a string all of whose characters pass gives it back. */
  lemma {:induction false} FilterAllAllowed(s: string)
    requires forall i :: 0 <= i < |s| ==> Allowed(s[i])
    ensures Filter(s, Allowed) == s
  {
    if s != [] {
      FilterAllAllowed(s[1..]);
      assert s == [s[0]] + s[1..];
    }
  }

  /** Cleaning a cleaned text changes nothing. */
  lemma CleanTextIdempotent(text: Field)
    ensures CleanText(Str(CleanText(text))) == CleanText(text)
  {
    var r := CleanText(text);
    LowerAllFixed(r);
    FilterAllAllowed(r);
  }

  /** On a cleaned title, the engine's ASCII lowercasing is the identity, so it agrees with `toLowerCase`. */
  lemma {:induction false} CleanTitleIsLower(text: Field)
    ensures Lower(CleanText(text)) == CleanText(text)
  {
    var r := CleanText(text);
    assert forall i :: 0 <= i < |r| ==> Lower(r)[i] == LowerChar(r[i]) == r[i];
  }

  /** One line of the review file: product id, reviewer, and the `overall` rating when the key is present. */
  datatype RawReview = RawReview(asin: string, reviewerId: string, overall: Option<real>)

  /** `'overall' in review and 1 <= review['overall'] <= 5`. */
  predicate HasValidRating(r: RawReview)
  {
    r.overall.Some? && 1.0 <= r.overall.value <= 5.0
  }

  /** The review loop: each review with a valid rating is appended to the kept list. */
  method KeepValidReviews(raw: seq<RawReview>) returns (kept: seq<RawReview>)
    ensures kept == Filter(raw, HasValidRating)
  {
    kept := [];
    var i := 0;
    while i < |raw|
      invariant 0 <= i <= |raw|
      invariant kept == Filter(raw[..i], HasValidRating)
    {
      var review := raw[i];
      FilterSnoc(raw[..i], review, HasValidRating);
      assert raw[..i + 1] == raw[..i] + [review];
      if review.overall.Some? && 1.0 <= review.overall.value <= 5.0 {
        kept := kept + [review];
      }
      i := i + 1;
    }
    assert raw[..i] == raw;
  }

  /**
   * The kept reviews are exactly the reviews with a rating in [1, 5], in file
   * order, each as often as it occurs in the file.
   */
  lemma ValidReviewsSpec(raw: seq<RawReview>)
    ensures IsSubsequence(Filter(raw, HasValidRating), raw)
    ensures forall r :: r in Filter(raw, HasValidRating) <==> r in raw && HasValidRating(r)
    ensures forall r :: HasValidRating(r) ==> multiset(Filter(raw, HasValidRating))[r] == multiset(raw)[r]
  {
    var kept := Filter(raw, HasValidRating);
    FilterSpec(raw, HasValidRating);
    forall r ensures r in kept <==> r in raw && HasValidRating(r) {
      assert r in kept <==> r in multiset(kept);
      assert r in raw <==> r in multiset(raw);
    }
  }

  /** A product line of the metadata file, as far as the review filter reads it. */
  datatype MetaProduct = MetaProduct(asin: string)

  /** `set(meta_df['asin'].tolist())`. */
  function CatalogAsins(meta: seq<MetaProduct>): (ids: set<string>)
    ensures forall a :: a in ids <==> exists i :: 0 <= i < |meta| && meta[i].asin == a
  {
    set p | p in meta :: p.asin
  }

  /**
   * `reviews_df[reviews_df['asin'].isin(valid_products)]`: the reviews of
   * catalogued products, in their original order. Every kept review names a
   * product of the metadata, and every review that does is kept, as often as
   * it occurs.
   */
  function KeepCatalogued(reviews: seq<RawReview>, meta: seq<MetaProduct>): (kept: seq<RawReview>)
    ensures IsSubsequence(kept, reviews)
    ensures forall r :: r in kept ==> exists i :: 0 <= i < |meta| && meta[i].asin == r.asin
    ensures forall r :: r in reviews && r.asin in CatalogAsins(meta) ==> r in kept
    ensures forall r :: multiset(kept)[r] == if r.asin in CatalogAsins(meta) then multiset(reviews)[r] else 0
  {
    var ids := CatalogAsins(meta);
    var keep := (r: RawReview) => r.asin in ids;
    var kept := Filter(reviews, keep);
    FilterSpec(reviews, keep);
    assert forall r :: r in kept ==> r.asin in ids by {
      forall r | r in kept ensures r.asin in ids {
        assert r in multiset(kept);
      }
    }
    assert forall r :: r in reviews && r.asin in ids ==> r in kept by {
      forall r | r in reviews && r.asin in ids ensures r in kept {
        assert r in multiset(reviews);
      }
    }
    kept
  }
}

=== FILE: collaborative.dfy ===
/**
 * Collaborative recommendations (`collaborativeRecommendations`): the
 * reviewers who liked the reference product vote, through their own liked
 * reviews, for the other products; the votes are tallied in an
 * insertion-ordered counter, normalised by the number of likes of the
 * reference, ranked and cut to the limit.
 */
module Collaborative {
  import opened Wrappers
  import opened Text
  import opened Seqs
  import opened Ranking
  import opened Catalog

  predicate Liked(r: Review) { r.overall >= LikedThreshold }

  /**
   * `usersWhoRated`: the reviewer of every liked review of productId, in log
   * order. A reviewer who liked it twice appears twice.
   */
  function Likers(reviews: seq<Review>, productId: string): seq<string>
  {
    if reviews == [] then []
    else
      var r := reviews[|reviews| - 1];
      Likers(reviews[..|reviews| - 1], productId) + (if r.asin == productId && Liked(r) then [r.reviewerId] else [])
  }

  /** How many reviews by user liked the product asin. */
  function CountLikes(reviews: seq<Review>, user: string, asin: string): nat
  {
    if reviews == [] then 0
    else
      var r := reviews[|reviews| - 1];
      CountLikes(reviews[..|reviews| - 1], user, asin) + (if r.reviewerId == user && r.asin == asin && Liked(r) then 1 else 0)
  }

  /** Each reviewer occurs among the likers once per review in which they liked the product. */
  lemma {:induction false} LikersCount(reviews: seq<Review>, productId: string, user: string)
    ensures multiset(Likers(reviews, productId))[user] == CountLikes(reviews, user, productId)
  {
    if reviews != [] {
      LikersCount(reviews[..|reviews| - 1], productId, user);
    }
  }

  /** `reviews.filter(r => r.reviewerID === userId)`. */
  function ReviewsBy(reviews: seq<Review>, user: string): seq<Review>
  {
    if reviews == [] then []
    else
      var r := reviews[|reviews| - 1];
      ReviewsBy(reviews[..|reviews| - 1], user) + (if r.reviewerId == user then [r] else [])
  }

  /** The products that a run of reviews votes for: liked reviews of other products, in order. */
  function Votes(rs: seq<Review>, productId: string): seq<string>
  {
    if rs == [] then []
    else
      var r := rs[|rs| - 1];
      Votes(rs[..|rs| - 1], productId) + (if r.asin != productId && Liked(r) then [r.asin] else [])
  }

  /** All votes, in the order the two nested `forEach` loops meet them. */
  function Scan(reviews: seq<Review>, users: seq<string>, productId: string): seq<string>
  {
    if users == [] then []
    else
      Scan(reviews, users[..|users| - 1], productId)
      + Votes(ReviewsBy(reviews, users[|users| - 1]), productId)
  }

  /** `productScores`: an insertion-ordered counter, keys in `order`, values in `counts`. */
  datatype Tally = Tally(order: seq<string>, counts: map<string, nat>)

  /** `if (!productScores[asin]) productScores[asin] = 0; productScores[asin]++`. */
  function Bump(t: Tally, asin: string): Tally
  {
    if asin in t.counts then Tally(t.order, t.counts[asin := t.counts[asin] + 1])
    else Tally(t.order + [asin], t.counts[asin := 1])
  }

  /** The counter after counting every vote of xs in turn. */
  function Tallied(xs: seq<string>): Tally
  {
    if xs == [] then Tally([], map[])
    else Bump(Tallied(xs[..|xs| - 1]), xs[|xs| - 1])
  }

  lemma TalliedSnoc(xs: seq<string>, x: string)
    ensures Tallied(xs + [x]) == Bump(Tallied(xs), x)
  {
    assert (xs + [x])[..|xs|] == xs;
  }

  lemma VotesStep(rs: seq<Review>, j: nat, productId: string)
    requires j < |rs|
    ensures Votes(rs[..j + 1], productId)
         == Votes(rs[..j], productId) + (if rs[j].asin != productId && Liked(rs[j]) then [rs[j].asin] else [])
  {
    assert rs[..j + 1][..j] == rs[..j];
  }

  /** The counter holds every voted product once, with its number of votes. */
  lemma {:induction false} TalliedCounts(xs: seq<string>)
    ensures forall a :: a in Tallied(xs).counts <==> a in xs
    ensures forall a :: a in Tallied(xs).order <==> a in xs
    ensures forall a :: a in Tallied(xs).counts ==> Tallied(xs).counts[a] == multiset(xs)[a] > 0
  {
    if xs != [] {
      var init := xs[..|xs| - 1];
      var x := xs[|xs| - 1];
      assert xs == init + [x];
      TalliedCounts(init);
      var t := Tallied(xs);
      forall a | a in t.counts ensures t.counts[a] == multiset(xs)[a] > 0 {
        assert multiset(xs) == multiset(init) + multiset{x};
      }
    }
  }

  /** The counter lists the products in the order of their first vote. */
  lemma {:induction false} TalliedOrder(xs: seq<string>)
    ensures forall i, j :: 0 <= i < j < |Tallied(xs).order| ==>
      FirstIndex(xs, Tallied(xs).order[i]) < FirstIndex(xs, Tallied(xs).order[j])
  {
    if xs != [] {
      var init := xs[..|xs| - 1];
      var x := xs[|xs| - 1];
      assert xs == init + [x];
      TalliedOrder(init);
      TalliedCounts(init);
      var t0 := Tallied(init);
      var t := Tallied(xs);
      forall a ensures FirstIndex(xs, a) == if a in init then FirstIndex(init, a) else if a == x then |init| else |init| + 1 {
        FirstIndexSnoc(init, x, a);
      }
      if x !in t0.counts {
        forall i, j | 0 <= i < j < |t.order| ensures FirstIndex(xs, t.order[i]) < FirstIndex(xs, t.order[j]) {
          if j == |t.order| - 1 {
            assert t.order[j] == x && t.order[i] == t0.order[i] && t0.order[i] in init;
          } else {
            assert t.order[i] == t0.order[i] && t.order[j] == t0.order[j];
          }
        }
      }
    }
  }

  /** Tally votes are what the scan produces: the sum, over every like of the reference, of that reviewer's likes of the candidate. */
  function LikedTotal(reviews: seq<Review>, users: seq<string>, asin: string): nat
  {
    if users == [] then 0
    else LikedTotal(reviews, users[..|users| - 1], asin) + CountLikes(reviews, users[|users| - 1], asin)
  }

  lemma {:induction false} VotesCount(reviews: seq<Review>, user: string, productId: string, asin: string)
    requires asin != productId
    ensures multiset(Votes(ReviewsBy(reviews, user), productId))[asin] == CountLikes(reviews, user, asin)
  {
    if reviews != [] {
      var init := reviews[..|reviews| - 1];
      var r := reviews[|reviews| - 1];
      VotesCount(init, user, productId, asin);
      var before := ReviewsBy(init, user);
      if r.reviewerId == user {
        assert ReviewsBy(reviews, user) == before + [r];
        assert (before + [r])[..|before|] == before && (before + [r])[|before|] == r;
        var vote := if r.asin != productId && Liked(r) then [r.asin] else [];
        assert Votes(before + [r], productId) == Votes(before, productId) + vote;
        assert multiset(Votes(before, productId) + vote) == multiset(Votes(before, productId)) + multiset(vote);
      } else {
        assert ReviewsBy(reviews, user) == before;
      }
    }
  }

  /** For another product, the number of votes in the scan is LikedTotal. */
  lemma {:induction false} ScanCount(reviews: seq<Review>, users: seq<string>, productId: string, asin: string)
    requires asin != productId
    ensures multiset(Scan(reviews, users, productId))[asin] == LikedTotal(reviews, users, asin)
  {
    if users != [] {
      ScanCount(reviews, users[..|users| - 1], productId, asin);
      VotesCount(reviews, users[|users| - 1], productId, asin);
    }
  }

  /** The reference product never receives a vote. */
  lemma {:induction false} ScanSkipsReference(reviews: seq<Review>, users: seq<string>, productId: string)
    ensures productId !in Scan(reviews, users, productId)
  {
    if users != [] {
      ScanSkipsReference(reviews, users[..|users| - 1], productId);
      VotesSkipReference(ReviewsBy(reviews, users[|users| - 1]), productId);
    }
  }

  lemma {:induction false} VotesSkipReference(rs: seq<Review>, productId: string)
    ensures productId !in Votes(rs, productId)
  {
    if rs != [] {
      VotesSkipReference(rs[..|rs| - 1], productId);
    }
  }

  /** The fixed pieces of the reason template. */
  const ReasonUsers: string := " người dùng thích "
  const ReasonTail: string := "... cũng thích sản phẩm này"

  /**
   * The reason template: the raw vote count, the first 30 characters of the
   * reference title and an ellipsis that is appended whatever the title's length.
   */
  function CollabReason(count: nat, targetTitle: string): string
  {
    NatToString(count) + ReasonUsers + Prefix(targetTitle, 30) + ReasonTail
  }

  /**
   * `Object.entries(productScores).map(...).filter(item => item !== null)`:
   * one entry per counted product that the catalog knows, normalised by the
   * number of likes of the reference; unknown ids are dropped.
   */
  function Resolve(products: seq<Product>, keys: seq<string>, counts: map<string, nat>, likes: nat, targetTitle: string)
    : seq<Recommendation>
    requires likes > 0
    requires forall k :: k in keys ==> k in counts
  {
    if keys == [] then []
    else
      var k := keys[0];
      (match GetProductById(products, k)
       case None => []
       case Some(p) => [Recommendation(p, counts[k] as real / likes as real, CollabReason(counts[k], targetTitle))])
      + Resolve(products, keys[1..], counts, likes, targetTitle)
  }

  /**
   * The collaborative list, with the reference title passed in. (The source
   * reads it from a `targetProduct` variable that does not exist in this
   * function, so any call that resolves a candidate throws; passing the
   * title is the correction.)
   */
  function Collaborative(products: seq<Product>, reviews: seq<Review>, productId: string, targetTitle: string, limit: int := 5)
    : (r: seq<Recommendation>)
    ensures |Likers(reviews, productId)| == 0 ==> r == []
    ensures 0 <= limit ==> |r| <= limit
    ensures SortedDesc(r, RecScore)
    ensures |Likers(reviews, productId)| > 0 ==>
      var pool := CollabPool(products, reviews, productId, targetTitle);
      forall i, e :: 0 <= i < |r| && multiset(r)[e] < multiset(pool)[e] ==> e.score <= r[i].score
  {
    var likers := Likers(reviews, productId);
    if |likers| == 0 then []
    else
      var pool := CollabPool(products, reviews, productId, targetTitle);
      RankedShape(pool, RecScore, limit);
      RankedTop(pool, RecScore, limit);
      Take(SortByScore(pool, RecScore), limit)
  }

  /** The loop's two-step update of the counter (create at 0, then increment) is one Bump. */
  lemma BumpUpdate(order: seq<string>, counts: map<string, nat>, a: string)
    ensures var c1 := if a !in counts then counts[a := 0] else counts;
      var o1 := if a !in counts then order + [a] else order;
      Tally(o1, c1[a := c1[a] + 1]) == Bump(Tally(order, counts), a)
  {
  }

  /**
   * One pass of the inner loop: a liked review of another product bumps its
   * counter (created at 0 first, then incremented), any other review leaves
   * the counter alone; either way the counter is that of the votes so far.
   */
  lemma CountStep(before: seq<string>, rs: seq<Review>, j: nat, productId: string,
                  order: seq<string>, counts: map<string, nat>)
    requires j < |rs|
    requires Tally(order, counts) == Tallied(before + Votes(rs[..j], productId))
    ensures var a := rs[j].asin;
      var after := Tallied(before + Votes(rs[..j + 1], productId));
      && (a != productId && Liked(rs[j]) ==> Bump(Tally(order, counts), a) == after)
      && (!(a != productId && Liked(rs[j])) ==> Tally(order, counts) == after)
  {
    var seen := before + Votes(rs[..j], productId);
    VotesStep(rs, j, productId);
    if rs[j].asin != productId && Liked(rs[j]) {
      TalliedSnoc(seen, rs[j].asin);
      assert seen + [rs[j].asin] == before + Votes(rs[..j + 1], productId);
    } else {
      assert Votes(rs[..j + 1], productId) == Votes(rs[..j], productId);
    }
  }

  /**
   * The inner `forEach` over one liker's reviews: every liked review of
   * another product bumps that product's counter.
   */
  method CountVotes(order0: seq<string>, counts0: map<string, nat>, userReviews: seq<Review>, productId: string,
                    ghost before: seq<string>)
    returns (order: seq<string>, counts: map<string, nat>)
    requires Tally(order0, counts0) == Tallied(before)
    ensures Tally(order, counts) == Tallied(before + Votes(userReviews, productId))
  {
    order, counts := order0, counts0;
    var j := 0;
    assert Votes(userReviews[..0], productId) == [] && before + [] == before;
    while j < |userReviews|
      invariant 0 <= j <= |userReviews|
      invariant Tally(order, counts) == Tallied(before + Votes(userReviews[..j], productId))
    {
      var review := userReviews[j];
      CountStep(before, userReviews, j, productId, order, counts);
      if review.asin != productId && review.overall >= LikedThreshold {
        BumpUpdate(order, counts, review.asin);
        if review.asin !in counts {
          counts := counts[review.asin := 0];
          order := order + [review.asin];
        }
        counts := counts[review.asin := counts[review.asin] + 1];
      }
      j := j + 1;
    }
    assert userReviews[..j] == userReviews;
  }

  /** `collaborativeRecommendations(productId, limit)`, with the two nested loops that fill the counter. */
  method CollaborativeRecommendations(products: seq<Product>, reviews: seq<Review>, productId: string, targetTitle: string, limit: int := 5)
    returns (r: seq<Recommendation>)
    ensures r == Collaborative(products, reviews, productId, targetTitle, limit)
  {
    var usersWhoRated := Likers(reviews, productId);
    if |usersWhoRated| == 0 {
      return [];
    }
    var order: seq<string> := [];
    var counts: map<string, nat> := map[];
    var i := 0;
    while i < |usersWhoRated|
      invariant 0 <= i <= |usersWhoRated|
      invariant Tally(order, counts) == Tallied(Scan(reviews, usersWhoRated[..i], productId))
    {
      var userReviews := ReviewsBy(reviews, usersWhoRated[i]);
      ghost var before := Scan(reviews, usersWhoRated[..i], productId);
      order, counts := CountVotes(order, counts, userReviews, productId, before);
      assert usersWhoRated[..i + 1][..i] == usersWhoRated[..i];
      i := i + 1;
    }
    assert usersWhoRated[..i] == usersWhoRated;
    TalliedCounts(Scan(reviews, usersWhoRated, productId));
    r := Take(SortByScore(Resolve(products, order, counts, |usersWhoRated|, targetTitle), RecScore), limit);
  }

  /** The resolved entries follow the counter's order. */
  lemma {:induction false} ResolveInOrder(products: seq<Product>, keys: seq<string>, counts: map<string, nat>, likes: nat, targetTitle: string)
    requires likes > 0
    requires forall k :: k in keys ==> k in counts
    ensures IsSubsequence(Asins(Resolve(products, keys, counts, likes, targetTitle)), keys)
  {
    if keys != [] {
      var rest := Resolve(products, keys[1..], counts, likes, targetTitle);
      ResolveInOrder(products, keys[1..], counts, likes, targetTitle);
      var r := Resolve(products, keys, counts, likes, targetTitle);
      if GetProductById(products, keys[0]).Some? {
        assert Asins(r)[0] == keys[0];
        assert Asins(r)[1..] == Asins(rest);
      } else {
        assert r == rest;
      }
    }
  }

  /** Each resolved entry is the catalog's product for a counted id, scored by its count over the likes. */
  lemma {:induction false} ResolveEntries(products: seq<Product>, keys: seq<string>, counts: map<string, nat>, likes: nat, targetTitle: string)
    requires likes > 0
    requires forall k :: k in keys ==> k in counts
    ensures forall e :: e in Resolve(products, keys, counts, likes, targetTitle) ==>
      && e.product.asin in keys
      && GetProductById(products, e.product.asin) == Some(e.product)
      && e.score == counts[e.product.asin] as real / likes as real
      && e.reason == CollabReason(counts[e.product.asin], targetTitle)
  {
    if keys != [] {
      ResolveEntries(products, keys[1..], counts, likes, targetTitle);
    }
  }

  /** Every counted id that the catalog knows gets an entry. */
  lemma {:induction false} ResolveComplete(products: seq<Product>, keys: seq<string>, counts: map<string, nat>, likes: nat, targetTitle: string)
    requires likes > 0
    requires forall k :: k in keys ==> k in counts
    ensures forall k :: k in keys && GetProductById(products, k).Some? ==>
      k in Asins(Resolve(products, keys, counts, likes, targetTitle))
  {
    if keys != [] {
      ResolveComplete(products, keys[1..], counts, likes, targetTitle);
      var rest := Resolve(products, keys[1..], counts, likes, targetTitle);
      var r := Resolve(products, keys, counts, likes, targetTitle);
      if GetProductById(products, keys[0]).Some? {
        assert Asins(r)[0] == keys[0];
        assert Asins(r)[1..] == Asins(rest);
      } else {
        assert r == rest;
      }
    }
  }

  /** The list the collaborative ranking draws from: resolved counter entries, in first-vote order. */
  function CollabPool(products: seq<Product>, reviews: seq<Review>, productId: string, targetTitle: string): seq<Recommendation>
    requires |Likers(reviews, productId)| > 0
  {
    var scan := Scan(reviews, Likers(reviews, productId), productId);
    TalliedCounts(scan);
    Resolve(products, Tallied(scan).order, Tallied(scan).counts, |Likers(reviews, productId)|, targetTitle)
  }

  /**
   * The pool holds exactly the voted-for products the catalog knows, never the
   * reference, each scored LikedTotal / number of likes of the reference, and
   * lists them in the order of their first vote, so no id occurs twice.
   */
  lemma CollabPoolSpec(products: seq<Product>, reviews: seq<Review>, productId: string, targetTitle: string)
    requires |Likers(reviews, productId)| > 0
    ensures var likers := Likers(reviews, productId);
      var scan := Scan(reviews, likers, productId);
      var pool := CollabPool(products, reviews, productId, targetTitle);
      && (forall e :: e in pool ==>
            && e.product.asin != productId
            && GetProductById(products, e.product.asin) == Some(e.product)
            && LikedTotal(reviews, likers, e.product.asin) > 0
            && e.score == LikedTotal(reviews, likers, e.product.asin) as real / |likers| as real
            && e.reason == CollabReason(LikedTotal(reviews, likers, e.product.asin), targetTitle))
      && (forall a :: a != productId && LikedTotal(reviews, likers, a) > 0 && GetProductById(products, a).Some?
            ==> a in Asins(pool))
      && (forall i, j :: 0 <= i < j < |pool| ==>
            FirstIndex(scan, pool[i].product.asin) < FirstIndex(scan, pool[j].product.asin))
  {
    var likers := Likers(reviews, productId);
    var scan := Scan(reviews, likers, productId);
    var t := Tallied(scan);
    TalliedCounts(scan);
    TalliedOrder(scan);
    ScanSkipsReference(reviews, likers, productId);
    var pool := CollabPool(products, reviews, productId, targetTitle);
    ResolveEntries(products, t.order, t.counts, |likers|, targetTitle);
    ResolveComplete(products, t.order, t.counts, |likers|, targetTitle);
    ResolveInOrder(products, t.order, t.counts, |likers|, targetTitle);
    forall e | e in pool
      ensures e.product.asin != productId
      ensures LikedTotal(reviews, likers, e.product.asin) > 0
      ensures e.score == LikedTotal(reviews, likers, e.product.asin) as real / |likers| as real
      ensures e.reason == CollabReason(LikedTotal(reviews, likers, e.product.asin), targetTitle)
    {
      ScanCount(reviews, likers, productId, e.product.asin);
    }
    forall a | a != productId && LikedTotal(reviews, likers, a) > 0 && GetProductById(products, a).Some?
      ensures a in Asins(pool)
    {
      ScanCount(reviews, likers, productId, a);
    }
    SubsequenceFirstOrder(Asins(pool), t.order, scan);
    assert forall i, j :: 0 <= i < j < |pool| ==>
      FirstIndex(scan, Asins(pool)[i]) < FirstIndex(scan, Asins(pool)[j]);
  }

  /** No product id occurs twice in the pool, since each is listed at its first vote. */
  lemma CollabPoolDistinct(products: seq<Product>, reviews: seq<Review>, productId: string, targetTitle: string)
    requires |Likers(reviews, productId)| > 0
    ensures DistinctKeys(CollabPool(products, reviews, productId, targetTitle), ProductId)
  {
    var scan := Scan(reviews, Likers(reviews, productId), productId);
    var pool := CollabPool(products, reviews, productId, targetTitle);
    CollabPoolSpec(products, reviews, productId, targetTitle);
    forall i, j | 0 <= i < j < |pool| ensures ProductId(pool[i]) != ProductId(pool[j]) {
      assert FirstIndex(scan, pool[i].product.asin) < FirstIndex(scan, pool[j].product.asin);
    }
  }

  /** No product id occurs twice in the collaborative list. */
  lemma CollaborativeDistinct(products: seq<Product>, reviews: seq<Review>, productId: string, targetTitle: string, limit: int)
    ensures DistinctKeys(Collaborative(products, reviews, productId, targetTitle, limit), ProductId)
  {
    if |Likers(reviews, productId)| > 0 {
      CollabPoolDistinct(products, reviews, productId, targetTitle);
      RankedDistinct(CollabPool(products, reviews, productId, targetTitle), RecScore, limit, ProductId);
    }
  }

  /**
   * What the collaborative strategy returns when someone liked the reference:
   * entries drawn from the pool, sorted, as long as `slice(0, limit)` allows,
   * each with its LikedTotal score and reason, no id twice, and ties in
   * first-vote order.
   */
  lemma CollaborativeSpec(products: seq<Product>, reviews: seq<Review>, productId: string, targetTitle: string, limit: int)
    requires |Likers(reviews, productId)| > 0
    ensures var likers := Likers(reviews, productId);
      var pool := CollabPool(products, reviews, productId, targetTitle);
      var r := Collaborative(products, reviews, productId, targetTitle, limit);
      && |r| == SliceEnd(|pool|, limit)
      && multiset(r) <= multiset(pool)
      && (forall i :: 0 <= i < |r| ==>
            && r[i].product.asin != productId
            && GetProductById(products, r[i].product.asin) == Some(r[i].product)
            && r[i].score == LikedTotal(reviews, likers, r[i].product.asin) as real / |likers| as real
            && r[i].reason == CollabReason(LikedTotal(reviews, likers, r[i].product.asin), targetTitle))
      && (forall i, j :: 0 <= i < j < |r| ==> r[i].product.asin != r[j].product.asin)
      && (forall v :: WithScore(r, RecScore, v) <= WithScore(pool, RecScore, v))
      && (forall i, e :: 0 <= i < |r| && multiset(r)[e] < multiset(pool)[e] ==> e.score <= r[i].score)
  {
    var pool := CollabPool(products, reviews, productId, targetTitle);
    CollabPoolSpec(products, reviews, productId, targetTitle);
    RankProperties(pool, RecScore, limit);
    RankedFrom(pool, RecScore, limit);
    CollaborativeDistinct(products, reviews, productId, targetTitle, limit);
  }

  /** What the reason template raises: `targetProduct` is not declared in this method. */
  const UndefinedTarget: string := "ReferenceError: targetProduct is not defined"

  /**
   * The `map` over the counter as written: the first counted id the catalog
   * knows reaches the reason template, which raises; ids it does not know
   * map to `null` and are filtered out.
   */
  function ResolveAsWritten(products: seq<Product>, keys: seq<string>): (r: Result<seq<Recommendation>, string>)
    ensures r.Failure? ==> r.error == UndefinedTarget
    ensures r.Success? ==> r.value == []
  {
    if keys == [] then Success([])
    else if GetProductById(products, keys[0]).Some? then Failure(UndefinedTarget)
    else ResolveAsWritten(products, keys[1..])
  }

  /** `collaborativeRecommendations(productId, limit)` exactly as written, with the undeclared `targetProduct`. */
  function CollaborativeAsWritten(products: seq<Product>, reviews: seq<Review>, productId: string, limit: int := 5)
    : (r: Result<seq<Recommendation>, string>)
    ensures |Likers(reviews, productId)| == 0 ==> r == Success([])
    ensures r.Failure? ==> r.error == UndefinedTarget
    ensures r.Success? ==> r.value == []
  {
    var likers := Likers(reviews, productId);
    if |likers| == 0 then Success([])
    else
      var tally := Tallied(Scan(reviews, likers, productId));
      match ResolveAsWritten(products, tally.order)
      case Failure(e) => Failure(e)
      case Success(pool) => Success(Take(SortByScore(pool, RecScore), limit))
  }

  /** The as-written map raises exactly when the corrected one resolves at least one id. */
  lemma {:induction false} ResolveAsWrittenFails(products: seq<Product>, keys: seq<string>, counts: map<string, nat>,
                                                 likes: nat, targetTitle: string)
    requires likes > 0
    requires forall k :: k in keys ==> k in counts
    ensures ResolveAsWritten(products, keys).Failure? <==> Resolve(products, keys, counts, likes, targetTitle) != []
    ensures ResolveAsWritten(products, keys).Success? ==> ResolveAsWritten(products, keys).value == []
  {
    if keys != [] {
      ResolveAsWrittenFails(products, keys[1..], counts, likes, targetTitle);
    }
  }

  /**
   * As written, the method raises on every call whose corrected pool is not
   * empty, whatever the limit, and otherwise returns the same (empty) list as
   * the corrected method.
   */
  lemma AsWrittenRaises(products: seq<Product>, reviews: seq<Review>, productId: string, targetTitle: string, limit: int)
    ensures |Likers(reviews, productId)| > 0 ==>
      (CollaborativeAsWritten(products, reviews, productId, limit).Failure?
       <==> CollabPool(products, reviews, productId, targetTitle) != [])
    ensures CollaborativeAsWritten(products, reviews, productId, limit).Success? ==>
      CollaborativeAsWritten(products, reviews, productId, limit).value
      == Collaborative(products, reviews, productId, targetTitle, limit) == []
  {
    var likers := Likers(reviews, productId);
    if |likers| > 0 {
      var scan := Scan(reviews, likers, productId);
      TalliedCounts(scan);
      ResolveAsWrittenFails(products, Tallied(scan).order, Tallied(scan).counts, |likers|, targetTitle);
      RankedShape(CollabPool(products, reviews, productId, targetTitle), RecScore, limit);
    }
  }

  /**
   * One reviewer who liked both of two catalogued products: the corrected
   * method recommends the other product with score 1, the method as written
   * raises.
   */
  lemma UndefinedTargetExample()
    ensures var products := [Product("A", "red shoes"), Product("B", "red hat")];
      var reviews := [Review("A", "u1", 5.0), Review("B", "u1", 5.0)];
      && CollaborativeAsWritten(products, reviews, "A") == Failure(UndefinedTarget)
      && |Collaborative(products, reviews, "A", "red shoes")| == 1
      && Collaborative(products, reviews, "A", "red shoes")[0].product == Product("B", "red hat")
      && Collaborative(products, reviews, "A", "red shoes")[0].score == 1.0
  {
    var p, q := Product("A", "red shoes"), Product("B", "red hat");
    var products := [p, q];
    var reviews := [Review("A", "u1", 5.0), Review("B", "u1", 5.0)];
    SingleVoteScan();
    assert ["B"][..0] == [];
    assert Tallied(["B"]) == Tally(["B"], map["B" := 1]);
    assert products[1..] == [q];
    assert GetProductById(products, "B") == Some(q);
    assert ["B"][1..] == [];
    var rec := Recommendation(q, 1.0, CollabReason(1, "red shoes"));
    assert Resolve(products, ["B"], map["B" := 1], 1, "red shoes") == [rec];
    assert CollabPool(products, reviews, "A", "red shoes") == [rec];
    assert SortByScore([rec], RecScore) == [rec];
    assert ResolveAsWritten(products, ["B"]) == Failure(UndefinedTarget);
  }

  /** One reviewer who liked the reference and one other product votes once for it. */
  lemma SingleVoteScan()
    ensures var reviews := [Review("A", "u1", 5.0), Review("B", "u1", 5.0)];
      && Likers(reviews, "A") == ["u1"]
      && Scan(reviews, ["u1"], "A") == ["B"]
  {
    var a, b := Review("A", "u1", 5.0), Review("B", "u1", 5.0);
    assert [a, b][..1] == [a] && [a][..0] == [];
    assert Likers([a], "A") == ["u1"];
    assert ReviewsBy([a], "u1") == [a];
    assert ReviewsBy([a, b], "u1") == [a, b];
    assert Votes([a], "A") == [];
    assert ["u1"][..0] == [];
  }

  lemma DoubleVoteLikers()
    ensures Likers([Review("A", "u1", 5.0), Review("B", "u1", 5.0), Review("B", "u1", 4.0)], "A") == ["u1"]
  {
    var a, b, c := Review("A", "u1", 5.0), Review("B", "u1", 5.0), Review("B", "u1", 4.0);
    assert [a, b, c][..2] == [a, b] && [a, b][..1] == [a] && [a][..0] == [];
    assert Likers([a], "A") == ["u1"];
    assert Likers([a, b], "A") == ["u1"];
  }

  lemma DoubleVoteVotes()
    ensures var reviews := [Review("A", "u1", 5.0), Review("B", "u1", 5.0), Review("B", "u1", 4.0)];
      Votes(ReviewsBy(reviews, "u1"), "A") == ["B", "B"]
  {
    var a, b, c := Review("A", "u1", 5.0), Review("B", "u1", 5.0), Review("B", "u1", 4.0);
    assert [a, b, c][..2] == [a, b] && [a, b][..1] == [a] && [a][..0] == [];
    assert ReviewsBy([a], "u1") == [a];
    assert ReviewsBy([a, b], "u1") == [a, b];
    assert ReviewsBy([a, b, c], "u1") == [a, b, c];
    assert Votes([a], "A") == [];
    assert Votes([a, b], "A") == ["B"];
  }

  /** A reviewer who liked the reference once and another product twice votes twice for it. */
  lemma DoubleVoteScan()
    ensures var reviews := [Review("A", "u1", 5.0), Review("B", "u1", 5.0), Review("B", "u1", 4.0)];
      && Likers(reviews, "A") == ["u1"]
      && Scan(reviews, ["u1"], "A") == ["B", "B"]
  {
    DoubleVoteLikers();
    DoubleVoteVotes();
    assert ["u1"][..0] == [];
  }

  /**
   * The normalised score is not bounded by 1: a reviewer who liked the
   * reference once and the candidate twice gives it 2 votes over 1 like.
   */
  lemma ScoreAboveOne()
    ensures var products := [Product("A", "red shoes"), Product("B", "red hat")];
      var reviews := [Review("A", "u1", 5.0), Review("B", "u1", 5.0), Review("B", "u1", 4.0)];
      && |Collaborative(products, reviews, "A", "red shoes")| == 1
      && Collaborative(products, reviews, "A", "red shoes")[0].score == 2.0
  {
    var p, q := Product("A", "red shoes"), Product("B", "red hat");
    var products := [p, q];
    var reviews := [Review("A", "u1", 5.0), Review("B", "u1", 5.0), Review("B", "u1", 4.0)];
    DoubleVoteScan();
    assert ["B", "B"][..1] == ["B"] && ["B"][..0] == [];
    assert Tallied(["B"]) == Tally(["B"], map["B" := 1]);
    assert Tallied(["B", "B"]) == Tally(["B"], map["B" := 2]);
    assert products[1..] == [q];
    assert GetProductById(products, "B") == Some(q);
    assert ["B"][1..] == [];
    var rec := Recommendation(q, 2.0, CollabReason(2, "red shoes"));
    assert Resolve(products, ["B"], map["B" := 2], 1, "red shoes") == [rec];
    assert CollabPool(products, reviews, "A", "red shoes") == [rec];
    assert SortByScore([rec], RecScore) == [rec];
  }
}

=== FILE: content_based.dfy ===
/**
 * Content-based recommendations (`contentBasedRecommendations`): every other
 * product is scored by how many of the reference title's words its own title
 * shares, relative to the longer of the two titles.
 */
module ContentBased {
  import opened Wrappers
  import opened Text
  import opened Seqs
  import opened Ranking
  import opened Catalog

  /** `title_clean.toLowerCase().split(" ")`: the words of a title, split on single spaces only. */
  function Words(title: string): (w: seq<string>)
    ensures |w| >= 1
  {
    Split(Lower(title), ' ')
  }

  /** The words of a title, joined back with single spaces, give the lower-cased title. */
  lemma WordsJoin(title: string)
    ensures Join(Words(title), " ") == Lower(title)
  {
    JoinSplit(Lower(title), ' ');
  }

  /**
   * `targetWords.filter(word => productWords.includes(word))`: the reference
   * words, repeats included and in reference order, that occur among the
   * candidate's words.
   */
  function CommonWords(target: seq<string>, words: seq<string>): (c: seq<string>)
    ensures |c| <= |target|
    ensures IsSubsequence(c, target)
    ensures forall w :: multiset(c)[w] == if w in words then multiset(target)[w] else 0
  {
    if target == [] then []
    else
      var rest := CommonWords(target[1..], words);
      assert target == [target[0]] + target[1..];
      if target[0] in words then
        assert ([target[0]] + rest)[1..] == rest;
        [target[0]] + rest
      else rest
  }

  function Max(a: nat, b: nat): nat { if a < b then b else a }

  /**
   * `commonWords.length / Math.max(targetWords.length, productWords.length)`:
   * a fraction in [0, 1], positive exactly when some reference word occurs in
   * the candidate.
   */
  function Similarity(target: seq<string>, words: seq<string>): (r: real)
    requires |target| >= 1 && |words| >= 1
    ensures 0.0 <= r <= 1.0
    ensures r > 0.0 <==> exists k :: 0 <= k < |target| && target[k] in words
  {
    var common := CommonWords(target, words);
    var d := Max(|target|, |words|);
    SharedWordExists(target, words);
    FractionBounds(|common|, d);
    |common| as real / d as real
  }

  /** Some word is shared exactly when a reference word occurs in the candidate. */
  lemma {:induction false} SharedWordExists(target: seq<string>, words: seq<string>)
    ensures |CommonWords(target, words)| > 0 <==> exists k :: 0 <= k < |target| && target[k] in words
  {
    if target != [] {
      SharedWordExists(target[1..], words);
      if target[0] !in words && exists k :: 0 <= k < |target| && target[k] in words {
        var k :| 0 <= k < |target| && target[k] in words;
        assert target[1..][k - 1] == target[k];
      }
    }
  }

  lemma FractionBounds(a: nat, d: nat)
    requires 0 < d && a <= d
    ensures 0.0 <= a as real / d as real <= 1.0
    ensures a as real / d as real > 0.0 <==> a > 0
  {
  }

  /** The fixed pieces of the reason template. */
  const ReasonHead: string := "Có "
  const ReasonMiddle: string := " từ khóa chung: \""
  const ReasonTail: string := "\""

  /** The reason template: the number of shared words and the words themselves, comma-separated, in quotes. */
  function ContentReason(common: seq<string>): string
  {
    ReasonHead + NatToString(|common|) + ReasonMiddle + Join(common, ", ") + ReasonTail
  }

  /** The entry built for one candidate product. */
  function Score(target: seq<string>, p: Product): (e: Recommendation)
    requires |target| >= 1
    ensures e.product == p && 0.0 <= e.score <= 1.0
  {
    var words := Words(p.titleClean);
    Recommendation(p, Similarity(target, words), ContentReason(CommonWords(target, words)))
  }

  function Products(recs: seq<Recommendation>): seq<Product>
  {
    seq(|recs|, i requires 0 <= i < |recs| => recs[i].product)
  }

  /**
   * `products.filter(p => p.asin !== productId).map(...)`: one entry per
   * product with another id, in catalog order.
   */
  function Candidates(products: seq<Product>, productId: string, target: seq<string>): (r: seq<Recommendation>)
    requires |target| >= 1
  {
    if products == [] then []
    else
      var rest := Candidates(products[1..], productId, target);
      if products[0].asin != productId then [Score(target, products[0])] + rest else rest
  }

  /** The candidates follow catalog order. */
  lemma {:induction false} CandidatesInOrder(products: seq<Product>, productId: string, target: seq<string>)
    requires |target| >= 1
    ensures IsSubsequence(Products(Candidates(products, productId, target)), products)
  {
    if products != [] {
      CandidatesInOrder(products[1..], productId, target);
      var rest := Candidates(products[1..], productId, target);
      if products[0].asin != productId {
        var r := [Score(target, products[0])] + rest;
        assert Candidates(products, productId, target) == r;
        assert Products(r)[0] == products[0] && Products(r)[1..] == Products(rest) by {
          assert r[0].product == products[0] && r[1..] == rest;
        }
      } else {
        assert Candidates(products, productId, target) == rest;
      }
    }
  }

  /** Each candidate is another product with its own score. */
  lemma {:induction false} CandidatesScored(products: seq<Product>, productId: string, target: seq<string>)
    requires |target| >= 1
    ensures forall e :: e in Candidates(products, productId, target) ==>
      e.product.asin != productId && e == Score(target, e.product)
  {
    if products != [] {
      CandidatesScored(products[1..], productId, target);
      var rest := Candidates(products[1..], productId, target);
      if products[0].asin != productId {
        var r := [Score(target, products[0])] + rest;
        assert Candidates(products, productId, target) == r;
        assert r[0].product == products[0];
        assert r[0] == Score(target, r[0].product);
        assert forall e :: e in r ==> e == r[0] || e in rest;
      }
    }
  }

  /** Every product with another id has its entry among the candidates. */
  lemma {:induction false} CandidatesComplete(products: seq<Product>, productId: string, target: seq<string>)
    requires |target| >= 1
    ensures forall p :: p in products && p.asin != productId ==> Score(target, p) in Candidates(products, productId, target)
  {
    if products != [] {
      CandidatesComplete(products[1..], productId, target);
      assert forall p :: p in products ==> p == products[0] || p in products[1..];
    }
  }

  predicate HasPositiveScore(e: Recommendation) { e.score > 0.0 }

  /** `.filter(item => item.score > 0)` applied to the candidates: the pool the ranking draws from. */
  function Pool(products: seq<Product>, productId: string, target: seq<string>): seq<Recommendation>
    requires |target| >= 1
  {
    Filter(Candidates(products, productId, target), HasPositiveScore)
  }

  /** Whether a catalog product makes the pool: another id and a positive similarity to the reference words. */
  function Pooled(productId: string, target: seq<string>): Product -> bool
    requires |target| >= 1
  {
    (p: Product) => p.asin != productId && Similarity(target, Words(p.titleClean)) > 0.0
  }

  /** The pool's products are exactly the catalog filtered by `Pooled`, in order and with repeats. */
  lemma {:induction false} PoolProducts(products: seq<Product>, productId: string, target: seq<string>)
    requires |target| >= 1
    ensures Products(Pool(products, productId, target)) == Filter(products, Pooled(productId, target))
  {
    if products != [] {
      var p := products[0];
      var rest := Candidates(products[1..], productId, target);
      PoolProducts(products[1..], productId, target);
      if p.asin != productId {
        var e := Score(target, p);
        assert Candidates(products, productId, target) == [e] + rest;
        FilterCons(e, rest, HasPositiveScore);
        var head := if HasPositiveScore(e) then [e] else [];
        assert Products(head + Filter(rest, HasPositiveScore))
            == Products(head) + Products(Filter(rest, HasPositiveScore));
        assert Products(head) == if Pooled(productId, target)(p) then [p] else [];
      } else {
        assert Candidates(products, productId, target) == rest;
      }
    }
  }

  /** Every pooled entry is a catalog product other than the reference, scored in (0, 1]. */
  lemma PoolEntries(products: seq<Product>, productId: string, target: seq<string>)
    requires |target| >= 1
    ensures forall e :: e in Pool(products, productId, target) ==>
      && e.product in products && e.product.asin != productId
      && e == Score(target, e.product) && 0.0 < e.score <= 1.0
  {
    var cands := Candidates(products, productId, target);
    var pool := Pool(products, productId, target);
    CandidatesInOrder(products, productId, target);
    CandidatesScored(products, productId, target);
    FilterSpec(cands, HasPositiveScore);
    forall e | e in pool
      ensures e.product in products && e.product.asin != productId
      ensures e == Score(target, e.product) && 0.0 < e.score <= 1.0
    {
      assert multiset(pool)[e] > 0;
      assert HasPositiveScore(e) && multiset(cands)[e] > 0;
      assert e in cands;
      var i :| 0 <= i < |cands| && cands[i] == e;
      assert e == Score(target, e.product);
      assert Products(cands)[i] == e.product;
      SubsequenceIn(Products(cands), products, i);
    }
  }

  /**
   * The content-based list for `productId`: nothing when the id is unknown;
   * otherwise entries for other products only, each with a score in (0, 1],
   * in non-increasing score order.
   */
  function ContentBasedRecommendations(products: seq<Product>, productId: string, limit: int := 5)
    : (r: seq<Recommendation>)
    ensures GetProductById(products, productId).None? ==> r == []
    ensures forall i :: 0 <= i < |r| ==> r[i].product.asin != productId && 0.0 < r[i].score <= 1.0
    ensures SortedDesc(r, RecScore)
    ensures GetProductById(products, productId).Some? ==>
      var pool := Pool(products, productId, Words(GetProductById(products, productId).value.titleClean));
      forall i, e :: 0 <= i < |r| && multiset(r)[e] < multiset(pool)[e] ==> e.score <= r[i].score
  {
    match GetProductById(products, productId)
    case None => []
    case Some(target) =>
      var targetWords := Words(target.titleClean);
      var pool := Pool(products, productId, targetWords);
      PoolRanked(products, productId, targetWords, limit);
      Take(SortByScore(pool, RecScore), limit)
  }

  /** The ranked pool leaves out the reference, keeps scores in (0, 1], is sorted, and is the top of the pool. */
  lemma PoolRanked(products: seq<Product>, productId: string, target: seq<string>, limit: int)
    requires |target| >= 1
    ensures var pool := Pool(products, productId, target);
      var r := Take(SortByScore(pool, RecScore), limit);
      && (forall i :: 0 <= i < |r| ==> r[i].product.asin != productId && 0.0 < r[i].score <= 1.0)
      && SortedDesc(r, RecScore)
      && forall i, e :: 0 <= i < |r| && multiset(r)[e] < multiset(pool)[e] ==> e.score <= r[i].score
  {
    var pool := Pool(products, productId, target);
    PoolEntries(products, productId, target);
    RankedShape(pool, RecScore, limit);
    RankedTop(pool, RecScore, limit);
    RankedFrom(pool, RecScore, limit);
  }

  /** Subsequences of entries carry over to their products. */
  lemma {:induction false} ProductsSubsequence(a: seq<Recommendation>, b: seq<Recommendation>)
    requires IsSubsequence(a, b)
    ensures IsSubsequence(Products(a), Products(b))
    decreases |b|
  {
    if a != [] {
      assert Products(b)[1..] == Products(b[1..]);
      if a[0] == b[0] && IsSubsequence(a[1..], b[1..]) {
        ProductsSubsequence(a[1..], b[1..]);
        assert Products(a)[1..] == Products(a[1..]);
      } else {
        ProductsSubsequence(a, b[1..]);
      }
    }
  }

  /**
   * The whole contract of the content-based strategy for a known id: the
   * result lists the positive-scoring other products (`pool`, the catalog
   * filtered in order and with repeats), each with its similarity and its shared-word reason; it is as long
   * as `slice(0, limit)` allows; and entries with equal scores keep their
   * catalog order.
   */
  lemma ContentBasedSpec(products: seq<Product>, productId: string, limit: int, target: Product)
    requires GetProductById(products, productId) == Some(target)
    ensures var targetWords := Words(target.titleClean);
      var pool := Pool(products, productId, targetWords);
      var r := ContentBasedRecommendations(products, productId, limit);
      && Products(pool) == Filter(products, Pooled(productId, Words(target.titleClean)))
      && IsSubsequence(Products(pool), products)
      && (forall p :: (p in products && p.asin != productId
            && Similarity(targetWords, Words(p.titleClean)) > 0.0) ==> Score(targetWords, p) in pool)
      && |r| == SliceEnd(|pool|, limit)
      && multiset(r) <= multiset(pool)
      && (forall i :: 0 <= i < |r| ==>
            var words := Words(r[i].product.titleClean);
            && r[i].product in products
            && r[i].score == Similarity(targetWords, words)
            && r[i].reason == ContentReason(CommonWords(targetWords, words)))
      && (forall v :: WithScore(r, RecScore, v) <= WithScore(pool, RecScore, v))
      && (forall i, e :: 0 <= i < |r| && multiset(r)[e] < multiset(pool)[e] ==> e.score <= r[i].score)
  {
    var targetWords := Words(target.titleClean);
    var cands := Candidates(products, productId, targetWords);
    var pool := Pool(products, productId, targetWords);
    CandidatesInOrder(products, productId, targetWords);
    CandidatesComplete(products, productId, targetWords);
    PoolEntries(products, productId, targetWords);
    FilterSpec(cands, HasPositiveScore);
    ProductsSubsequence(pool, cands);
    SubsequenceTrans(Products(pool), Products(cands), products);
    PoolProducts(products, productId, targetWords);
    forall p | p in products && p.asin != productId && Similarity(targetWords, Words(p.titleClean)) > 0.0
      ensures Score(targetWords, p) in pool
    {
      assert multiset(cands)[Score(targetWords, p)] > 0;
      assert multiset(pool)[Score(targetWords, p)] > 0;
    }
    RankProperties(pool, RecScore, limit);
    RankedFrom(pool, RecScore, limit);
  }

  /** Two empty titles split into one empty word each, so they match completely. */
  lemma EmptyTitlesMatch()
    ensures Words("") == [""]
    ensures Similarity(Words(""), Words("")) == 1.0
  {
  }
}

=== FILE: engine.dfy ===
/**
 * The engine's entry points besides the three strategies: the catalog sample
 * shown on the start page (`getSampleProducts`) and the facade that checks the
 * reference id and dispatches to a strategy (`getRecommendations`). The catalog
 * and the review log are passed in already loaded.
 */
module Engine {
  import opened Wrappers
  import opened Ranking
  import opened Catalog
  import opened ContentBased
  import opened Collaborative
  import opened Hybrid

  /** One product of the start-page sample: its id and a display name. */
  datatype Sample = Sample(id: string, name: string)

  /** Titles longer than this are cut for display. */
  const NameLimit: nat := 50
  const Ellipsis: string := "..."

  /** A title, or its first 50 characters followed by "..." when it is longer. */
  function DisplayName(title: string): (name: string)
    ensures |title| <= NameLimit ==> name == title
    ensures |title| > NameLimit ==>
      && |name| == NameLimit + |Ellipsis|
      && name[..NameLimit] <= title
      && name[NameLimit..] == Ellipsis
  {
    if |title| > NameLimit then title[..NameLimit] + Ellipsis else title
  }

  /** `getSampleProducts(limit)`: the first products of the catalog, as `slice(0, limit)` picks them. */
  function GetSampleProducts(products: seq<Product>, limit: int := 8): (samples: seq<Sample>)
    ensures |samples| == SliceEnd(|products|, limit)
    ensures forall i :: 0 <= i < |samples| ==>
      samples[i].id == products[i].asin && samples[i].name == DisplayName(products[i].titleClean)
  {
    var shown := Take(products, limit);
    seq(|shown|, i requires 0 <= i < |shown| => Sample(shown[i].asin, DisplayName(shown[i].titleClean)))
  }

  /** The method names the facade recognises; any other name selects the hybrid strategy. */
  const ContentMethod: string := "content"
  const CollaborativeMethod: string := "collaborative"
  const HybridMethod: string := "hybrid"

  /** The head of the error for an unknown reference id; the id follows it. */
  const NotFoundMessage: string := "Không tìm thấy sản phẩm với ID: "

  /**
   * `getRecommendations(productId, method, limit)` after the data is loaded:
   * an error naming the id when the catalog does not know it, otherwise the
   * list of the strategy the method name selects, with hybrid as the fallback.
   */
  method GetRecommendations(products: seq<Product>, reviews: seq<Review>, productId: string,
                            strategy: string := HybridMethod, limit: int := 5)
    returns (result: Result<seq<Recommendation>, string>)
    ensures GetProductById(products, productId).None? ==> result == Failure(NotFoundMessage + productId)
    ensures GetProductById(products, productId).Some? ==>
      var title := GetProductById(products, productId).value.titleClean;
      result == Success(
        if strategy == ContentMethod then ContentBasedRecommendations(products, productId, limit)
        else if strategy == CollaborativeMethod then Collaborative.Collaborative(products, reviews, productId, title, limit)
        else Hybrid.Hybrid(products, reviews, productId, title, limit))
  {
    var target := GetProductById(products, productId);
    if target.None? {
      return Failure(NotFoundMessage + productId);
    }
    var title := target.value.titleClean;
    var recs;
    if strategy == ContentMethod {
      recs := ContentBasedRecommendations(products, productId, limit);
    } else if strategy == CollaborativeMethod {
      recs := CollaborativeRecommendations(products, reviews, productId, title, limit);
    } else {
      recs := HybridRecommendations(products, reviews, productId, title, limit);
    }
    return Success(recs);
  }

  /** No hybrid entry recommends the reference product itself. */
  lemma HybridExcludesReference(products: seq<Product>, reviews: seq<Review>, productId: string, targetTitle: string, limit: int)
    ensures var r := Hybrid.Hybrid(products, reviews, productId, targetTitle, limit);
      forall i :: 0 <= i < |r| ==> r[i].product.asin != productId
  {
    var content := ContentBasedRecommendations(products, productId, limit * 2);
    var collab := Collaborative.Collaborative(products, reviews, productId, targetTitle, limit * 2);
    HybridEntries(products, reviews, productId, targetTitle, limit);
    if |Likers(reviews, productId)| > 0 {
      CollaborativeSpec(products, reviews, productId, targetTitle, limit * 2);
    }
    assert productId !in Asins(content) + Asins(collab);
  }

  /**
   * Whatever the strategy, a successful answer never recommends the product
   * it was asked about, and never more than `limit` products.
   */
  lemma RecommendationsExcludeReference(products: seq<Product>, reviews: seq<Review>, productId: string,
                                        strategy: string, limit: int)
    requires GetProductById(products, productId).Some?
    ensures var title := GetProductById(products, productId).value.titleClean;
      var r := if strategy == ContentMethod then ContentBasedRecommendations(products, productId, limit)
        else if strategy == CollaborativeMethod then Collaborative.Collaborative(products, reviews, productId, title, limit)
        else Hybrid.Hybrid(products, reviews, productId, title, limit);
      && (0 <= limit ==> |r| <= limit)
      && forall i :: 0 <= i < |r| ==> r[i].product.asin != productId
  {
    var title := GetProductById(products, productId).value.titleClean;
    if strategy == ContentMethod {
      ContentBasedSpec(products, productId, limit, GetProductById(products, productId).value);
    } else if strategy == CollaborativeMethod {
      if |Likers(reviews, productId)| > 0 {
        CollaborativeSpec(products, reviews, productId, title, limit);
      }
    } else {
      HybridExcludesReference(products, reviews, productId, title, limit);
    }
  }
}

=== FILE: hybrid.dfy ===
/**
 * Hybrid recommendations (`hybridRecommendations`): the content-based and the
 * collaborative lists, each asked for twice the limit, are merged by product id
 * into an insertion-ordered board of weighted scores and reasons, which is
 * then ranked and cut to the limit.
 */
module Hybrid {
  import opened Wrappers
  import opened Text
  import opened Seqs
  import opened Ranking
  import opened Catalog
  import opened ContentBased
  import opened Collaborative

  /** The weights of the two strategies. */
  const ContentWeight: real := 0.6
  const CollabWeight: real := 0.4

  /** What the reasons of one product are joined with. */
  const ReasonSeparator: string := " | "

  /** A board entry: the product, its weighted score so far, and its reasons in arrival order. */
  datatype Combined = Combined(product: Product, score: real, reasons: seq<string>)

  /** `combinedScores`: an insertion-ordered map from product id to entry, keys in `order`. */
  datatype Board = Board(order: seq<string>, entries: map<string, Combined>)

  function CombinedScore(c: Combined): real { c.score }

  /** The key order lists each key of the map once, and each entry sits under its own product's id. */
  ghost predicate Consistent(b: Board)
  {
    && (forall k :: k in b.order <==> k in b.entries)
    && (forall i, j :: 0 <= i < j < |b.order| ==> b.order[i] != b.order[j])
    && (forall k :: k in b.entries ==> b.entries[k].product.asin == k)
  }

  /** `combinedScores[k] = c`: a new key goes to the end of the order, a known key keeps its place. */
  function Put(b: Board, k: string, c: Combined): Board
  {
    Board(if k in b.entries then b.order else b.order + [k], b.entries[k := c])
  }

  lemma PutConsistent(b: Board, k: string, c: Combined)
    requires Consistent(b) && c.product.asin == k
    ensures Consistent(Put(b, k, c))
  {
  }

  /** The entry a content-based recommendation seeds. */
  function Seeded(rec: Recommendation): Combined
  {
    Combined(rec.product, rec.score * ContentWeight, [rec.reason])
  }

  /** The entry a collaborative recommendation creates for an id the board does not hold. */
  function Fresh(rec: Recommendation): Combined
  {
    Combined(rec.product, rec.score * CollabWeight, [rec.reason])
  }

  /** `score += rec.score * 0.4; reasons.push(rec.reason)` on an existing entry. */
  function Added(c: Combined, rec: Recommendation): Combined
  {
    Combined(c.product, c.score + rec.score * CollabWeight, c.reasons + [rec.reason])
  }

  /** The first `forEach`: every content entry overwrites the entry under its id. */
  function Seed(content: seq<Recommendation>): Board
  {
    if content == [] then Board([], map[])
    else
      var rec := content[|content| - 1];
      Put(Seed(content[..|content| - 1]), rec.product.asin, Seeded(rec))
  }

  /** One step of the second `forEach`. */
  function MergeOne(b: Board, rec: Recommendation): Board
  {
    var k := rec.product.asin;
    if k in b.entries then Put(b, k, Added(b.entries[k], rec))
    else Put(b, k, Fresh(rec))
  }

  /** The second `forEach`: every collaborative entry is added into the board. */
  function Merge(b: Board, collab: seq<Recommendation>): Board
  {
    if collab == [] then b
    else MergeOne(Merge(b, collab[..|collab| - 1]), collab[|collab| - 1])
  }

  /** Seeding keeps the board consistent. */
  lemma {:induction false} SeedConsistent(content: seq<Recommendation>)
    ensures Consistent(Seed(content))
  {
    if content != [] {
      var rec := content[|content| - 1];
      SeedConsistent(content[..|content| - 1]);
      PutConsistent(Seed(content[..|content| - 1]), rec.product.asin, Seeded(rec));
    }
  }

  /** Merging keeps the board consistent. */
  lemma {:induction false} MergeConsistent(b: Board, collab: seq<Recommendation>)
    requires Consistent(b)
    ensures Consistent(Merge(b, collab))
  {
    if collab != [] {
      var m := Merge(b, collab[..|collab| - 1]);
      var rec := collab[|collab| - 1];
      var k := rec.product.asin;
      MergeConsistent(b, collab[..|collab| - 1]);
      if k in m.entries {
        PutConsistent(m, k, Added(m.entries[k], rec));
      } else {
        PutConsistent(m, k, Fresh(rec));
      }
    }
  }

  /** The board after both loops. */
  function Combine(content: seq<Recommendation>, collab: seq<Recommendation>): (b: Board)
    ensures Consistent(b)
  {
    SeedConsistent(content);
    MergeConsistent(Seed(content), collab);
    Merge(Seed(content), collab)
  }

  /** `Object.values(combinedScores)`, in key order. */
  function Values(b: Board): (vs: seq<Combined>)
    requires Consistent(b)
    ensures |vs| == |b.order|
    ensures forall i :: 0 <= i < |vs| ==> vs[i].product.asin == b.order[i]
  {
    seq(|b.order|, i requires 0 <= i < |b.order| => b.entries[b.order[i]])
  }

  /** The final `map`: one recommendation per entry, its reasons joined by " | ". */
  function Finish(c: Combined): Recommendation
  {
    Recommendation(c.product, c.score, Join(c.reasons, ReasonSeparator))
  }

  function Finished(cs: seq<Combined>): (r: seq<Recommendation>)
    ensures |r| == |cs|
    ensures forall i :: 0 <= i < |cs| ==> r[i] == Finish(cs[i])
  {
    seq(|cs|, i requires 0 <= i < |cs| => Finish(cs[i]))
  }

  /** The hybrid list, with the reference title passed through to the collaborative strategy. */
  function Hybrid(products: seq<Product>, reviews: seq<Review>, productId: string, targetTitle: string, limit: int := 5)
    : (r: seq<Recommendation>)
    ensures 0 <= limit ==> |r| <= limit
    ensures SortedDesc(r, RecScore)
    ensures var values := Values(Combine(ContentBasedRecommendations(products, productId, limit * 2),
                                         Collaborative.Collaborative(products, reviews, productId, targetTitle, limit * 2)));
      forall i, c :: 0 <= i < |r| && c in values && c.product.asin !in Asins(r) ==> c.score <= r[i].score
  {
    var content := ContentBasedRecommendations(products, productId, limit * 2);
    var collab := Collaborative.Collaborative(products, reviews, productId, targetTitle, limit * 2);
    var values := Values(Combine(content, collab));
    RankedShape(values, CombinedScore, limit);
    FinishedTop(values, limit);
    Finished(Take(SortByScore(values, CombinedScore), limit))
  }

  /** After the final `map`, every board entry whose id the list leaves out scores no more than each listed entry. */
  lemma FinishedTop(values: seq<Combined>, limit: int)
    ensures var r := Finished(Take(SortByScore(values, CombinedScore), limit));
      forall i, c :: 0 <= i < |r| && c in values && c.product.asin !in Asins(r) ==> c.score <= r[i].score
  {
    var ranked := Take(SortByScore(values, CombinedScore), limit);
    var r := Finished(ranked);
    RankedTop(values, CombinedScore, limit);
    forall i, c | 0 <= i < |r| && c in values && c.product.asin !in Asins(r) ensures c.score <= r[i].score {
      assert c !in ranked;
      assert multiset(ranked)[c] < multiset(values)[c];
      assert r[i].score == ranked[i].score;
    }
  }

  /** The first `forEach`, filling an empty board from the content-based list. */
  method SeedBoard(contentRecs: seq<Recommendation>) returns (order: seq<string>, entries: map<string, Combined>)
    ensures Board(order, entries) == Seed(contentRecs)
  {
    order, entries := [], map[];
    var i := 0;
    while i < |contentRecs|
      invariant 0 <= i <= |contentRecs|
      invariant Board(order, entries) == Seed(contentRecs[..i])
    {
      var rec := contentRecs[i];
      var k := rec.product.asin;
      ghost var prev := Board(order, entries);
      assert contentRecs[..i + 1][..i] == contentRecs[..i];
      assert Seed(contentRecs[..i + 1]) == Put(prev, k, Seeded(rec));
      if k !in entries {
        order := order + [k];
      }
      entries := entries[k := Combined(rec.product, rec.score * ContentWeight, [rec.reason])];
      assert Board(order, entries) == Put(prev, k, Seeded(rec));
      i := i + 1;
    }
    assert contentRecs[..i] == contentRecs;
  }

  /** The second `forEach`, adding the collaborative list into the board. */
  method MergeBoard(order0: seq<string>, entries0: map<string, Combined>, collabRecs: seq<Recommendation>)
    returns (order: seq<string>, entries: map<string, Combined>)
    ensures Board(order, entries) == Merge(Board(order0, entries0), collabRecs)
  {
    order, entries := order0, entries0;
    var j := 0;
    assert collabRecs[..0] == [];
    while j < |collabRecs|
      invariant 0 <= j <= |collabRecs|
      invariant Board(order, entries) == Merge(Board(order0, entries0), collabRecs[..j])
    {
      var rec := collabRecs[j];
      var k := rec.product.asin;
      MergeStep(Board(order0, entries0), collabRecs, j);
      if k in entries {
        var c := entries[k];
        entries := entries[k := Combined(c.product, c.score + rec.score * CollabWeight, c.reasons + [rec.reason])];
      } else {
        order := order + [k];
        entries := entries[k := Combined(rec.product, rec.score * CollabWeight, [rec.reason])];
      }
      j := j + 1;
    }
    assert collabRecs[..j] == collabRecs;
  }

  lemma MergeStep(b: Board, collab: seq<Recommendation>, j: nat)
    requires j < |collab|
    ensures Merge(b, collab[..j + 1]) == MergeOne(Merge(b, collab[..j]), collab[j])
  {
    assert collab[..j + 1][..j] == collab[..j];
  }

  /** `hybridRecommendations(productId, limit)`: both sub-lists at twice the limit, the two loops, rank and cut. */
  method HybridRecommendations(products: seq<Product>, reviews: seq<Review>, productId: string, targetTitle: string,
                               limit: int := 5)
    returns (r: seq<Recommendation>)
    ensures r == Hybrid(products, reviews, productId, targetTitle, limit)
  {
    var contentRecs := ContentBasedRecommendations(products, productId, limit * 2);
    var collabRecs := CollaborativeRecommendations(products, reviews, productId, targetTitle, limit * 2);
    var order, entries := SeedBoard(contentRecs);
    order, entries := MergeBoard(order, entries, collabRecs);
    assert Board(order, entries) == Combine(contentRecs, collabRecs);
    var values := Values(Board(order, entries));
    r := Finished(Take(SortByScore(values, CombinedScore), limit));
  }

  /** The last entry of recs for product a, if any. */
  function LastWith(recs: seq<Recommendation>, a: string): (r: Option<Recommendation>)
    ensures r.None? <==> forall i :: 0 <= i < |recs| ==> recs[i].product.asin != a
    ensures r.Some? <==> a in Asins(recs)
    ensures r.Some? ==> exists i :: 0 <= i < |recs| && recs[i] == r.value
                         && r.value.product.asin == a
                         && forall k :: i < k < |recs| ==> recs[k].product.asin != a
  {
    if recs == [] then None
    else if recs[|recs| - 1].product.asin == a then Some(recs[|recs| - 1])
    else
      var init := recs[..|recs| - 1];
      var r := LastWith(init, a);
      assert r.Some? ==>
        exists i :: 0 <= i < |recs| && recs[i] == r.value && forall k :: i < k < |recs| ==> recs[k].product.asin != a
      by {
        if r.Some? {
          var i :| 0 <= i < |init| && init[i] == r.value && forall k :: i < k < |init| ==> init[k].product.asin != a;
          assert recs[i] == init[i];
          forall k | i < k < |recs| ensures recs[k].product.asin != a {
            if k < |init| { assert recs[k] == init[k]; }
          }
        }
      }
      assert r.None? ==> forall i :: 0 <= i < |recs| ==> recs[i].product.asin != a by {
        if r.None? {
          forall i | 0 <= i < |recs| ensures recs[i].product.asin != a {
            if i < |init| { assert recs[i] == init[i]; }
          }
        }
      }
      r
  }

  /**
   * The entry the source promises for product a: 0.6 times its content score
   * and/or 0.4 times its collaborative score, with the content reason before
   * the collaborative one; nothing when neither list has it.
   */
  function Expected(content: seq<Recommendation>, collab: seq<Recommendation>, a: string): Option<Combined>
  {
    match (LastWith(content, a), LastWith(collab, a))
    case (None, None) => None
    case (Some(c), None) => Some(Combined(c.product, ContentWeight * c.score, [c.reason]))
    case (None, Some(d)) => Some(Combined(d.product, CollabWeight * d.score, [d.reason]))
    case (Some(c), Some(d)) =>
      Some(Combined(c.product, ContentWeight * c.score + CollabWeight * d.score, [c.reason, d.reason]))
  }

  /** After the first loop, each id holds the entry seeded by its last content recommendation. */
  lemma {:induction false} SeedEntries(content: seq<Recommendation>, a: string)
    ensures a in Seed(content).entries <==> LastWith(content, a).Some?
    ensures a in Seed(content).entries ==> Seed(content).entries[a] == Seeded(LastWith(content, a).value)
  {
    if content != [] {
      var init := content[..|content| - 1];
      SeedEntries(init, a);
      assert forall i :: 0 <= i < |init| ==> init[i] == content[i];
    }
  }

  /**
   * When no product id occurs twice in collab, merging it changes the entry
   * of id a only if collab has a; then the entry is added to, or created.
   */
  lemma {:induction false} MergeEntries(b: Board, collab: seq<Recommendation>, a: string)
    requires DistinctKeys(collab, ProductId)
    ensures LastWith(collab, a).None? ==>
      && (a in Merge(b, collab).entries <==> a in b.entries)
      && (a in b.entries ==> Merge(b, collab).entries[a] == b.entries[a])
    ensures LastWith(collab, a).Some? ==>
      && a in Merge(b, collab).entries
      && Merge(b, collab).entries[a]
         == if a in b.entries then Added(b.entries[a], LastWith(collab, a).value) else Fresh(LastWith(collab, a).value)
  {
    if collab != [] {
      var init := collab[..|collab| - 1];
      var x := collab[|collab| - 1];
      assert forall i :: 0 <= i < |init| ==> init[i] == collab[i];
      assert DistinctKeys(init, ProductId);
      MergeEntries(b, init, a);
      if x.product.asin == a {
        forall i | 0 <= i < |init| ensures init[i].product.asin != a {
          assert ProductId(collab[i]) != ProductId(collab[|collab| - 1]);
        }
      }
    }
  }

  /** The board holds, for every id, exactly the entry the source promises. */
  lemma CombineEntries(content: seq<Recommendation>, collab: seq<Recommendation>, a: string)
    requires DistinctKeys(collab, ProductId)
    ensures a in Combine(content, collab).entries <==> Expected(content, collab, a).Some?
    ensures a in Combine(content, collab).entries ==> Combine(content, collab).entries[a] == Expected(content, collab, a).value
  {
    SeedEntries(content, a);
    MergeEntries(Seed(content), collab, a);
    if LastWith(content, a).Some? && LastWith(collab, a).Some? {
      var c := LastWith(content, a).value;
      var d := LastWith(collab, a).value;
      assert [c.reason] + [d.reason] == [c.reason, d.reason];
    }
  }

  lemma AsinsPrefix(recs: seq<Recommendation>, n: nat)
    requires n <= |recs|
    ensures Asins(recs[..n]) == Asins(recs)[..n]
  {
  }

  /** Writing to a key appends it to the order exactly when the map does not hold it yet. */
  lemma PutOrder(b: Board, k: string, c: Combined)
    requires k in b.order <==> k in b.entries
    ensures Put(b, k, c).order == if k in b.order then b.order else b.order + [k]
  {
  }

  /** Deduplicating a list extended by one element. */
  lemma DedupSnoc(xs: seq<string>, x: string)
    ensures Dedup(xs + [x]) == if x in Dedup(xs) then Dedup(xs) else Dedup(xs) + [x]
  {
    assert (xs + [x])[..|xs|] == xs;
  }

  /** The first loop orders the ids by their first content recommendation. */
  lemma {:induction false} SeedOrder(content: seq<Recommendation>)
    ensures Seed(content).order == Dedup(Asins(content))
  {
    if content != [] {
      var init := content[..|content| - 1];
      var rec := content[|content| - 1];
      SeedOrder(init);
      assert rec.product.asin in Seed(init).order <==> rec.product.asin in Seed(init).entries by {
        SeedConsistent(init);
      }
      assert Seed(content) == Put(Seed(init), rec.product.asin, Seeded(rec));
      PutOrder(Seed(init), rec.product.asin, Seeded(rec));
      AsinsPrefix(content, |content| - 1);
      assert Asins(content) == Asins(init) + [rec.product.asin];
      DedupSnoc(Asins(init), rec.product.asin);
    }
  }

  /** The second loop appends the ids that are new to the board, in collaborative order. */
  lemma {:induction false} MergeOrder(b: Board, base: seq<string>, collab: seq<Recommendation>)
    requires Consistent(b)
    requires b.order == Dedup(base)
    ensures Merge(b, collab).order == Dedup(base + Asins(collab))
  {
    if collab == [] {
      assert base + Asins(collab) == base;
    } else {
      var init := collab[..|collab| - 1];
      var x := collab[|collab| - 1];
      var k := x.product.asin;
      var m := Merge(b, init);
      MergeOrder(b, base, init);
      assert k in m.order <==> k in m.entries by {
        MergeConsistent(b, init);
      }
      AsinsPrefix(collab, |collab| - 1);
      assert Asins(collab) == Asins(init) + [k];
      assert base + Asins(collab) == (base + Asins(init)) + [k];
      DedupSnoc(base + Asins(init), k);
      if k in m.entries {
        PutOrder(m, k, Added(m.entries[k], x));
      } else {
        PutOrder(m, k, Fresh(x));
      }
    }
  }

  /** The board's key order: content ids by first occurrence, then the collaborative ids not yet seen. */
  lemma CombineOrder(content: seq<Recommendation>, collab: seq<Recommendation>)
    ensures Combine(content, collab).order == Dedup(Asins(content) + Asins(collab))
  {
    SeedOrder(content);
    SeedConsistent(content);
    MergeOrder(Seed(content), Asins(content), collab);
  }

  /** Within the board's values, the content-seeded entries come first. */
  lemma ContentFirst(content: seq<Recommendation>, collab: seq<Recommendation>)
    ensures TiesFirst(Values(Combine(content, collab)), CombinedScore, (c: Combined) => c.product.asin in Asins(content))
  {
    CombineOrder(content, collab);
    DedupFront(Asins(content), Asins(collab));
  }

  function CombinedProductId(c: Combined): string { c.product.asin }

  /** Every value on the board is the entry the source promises for its id. */
  lemma ValuesExpected(content: seq<Recommendation>, collab: seq<Recommendation>)
    requires DistinctKeys(collab, ProductId)
    ensures forall c :: c in Values(Combine(content, collab)) ==>
      && c.product.asin in Asins(content) + Asins(collab)
      && Expected(content, collab, c.product.asin) == Some(c)
  {
    var board := Combine(content, collab);
    var values := Values(board);
    CombineOrder(content, collab);
    forall c | c in values
      ensures c.product.asin in Asins(content) + Asins(collab)
      ensures Expected(content, collab, c.product.asin) == Some(c)
    {
      var k :| 0 <= k < |values| && values[k] == c;
      var a := board.order[k];
      assert a in board.order;
      CombineEntries(content, collab, a);
    }
  }

  /** The board's values never share an id. */
  lemma ValuesDistinct(b: Board)
    requires Consistent(b)
    ensures DistinctKeys(Values(b), CombinedProductId)
  {
    var values := Values(b);
    forall i, j | 0 <= i < j < |values| ensures CombinedProductId(values[i]) != CombinedProductId(values[j]) {
      assert values[i].product.asin == b.order[i] && values[j].product.asin == b.order[j];
    }
  }

  /**
   * The hybrid list is as long as `slice(0, limit)` leaves of the merged ids,
   * and names no product twice.
   */
  lemma HybridLength(products: seq<Product>, reviews: seq<Review>, productId: string, targetTitle: string, limit: int)
    ensures var content := ContentBasedRecommendations(products, productId, limit * 2);
      var collab := Collaborative.Collaborative(products, reviews, productId, targetTitle, limit * 2);
      var r := Hybrid(products, reviews, productId, targetTitle, limit);
      && |r| == SliceEnd(|Dedup(Asins(content) + Asins(collab))|, limit)
      && (forall i, j :: 0 <= i < j < |r| ==> r[i].product.asin != r[j].product.asin)
  {
    var content := ContentBasedRecommendations(products, productId, limit * 2);
    var collab := Collaborative.Collaborative(products, reviews, productId, targetTitle, limit * 2);
    var board := Combine(content, collab);
    var values := Values(board);
    var ranked := Take(SortByScore(values, CombinedScore), limit);
    var r := Hybrid(products, reviews, productId, targetTitle, limit);
    CombineOrder(content, collab);
    RankedShape(values, CombinedScore, limit);
    ValuesDistinct(board);
    RankedDistinct(values, CombinedScore, limit, CombinedProductId);
    forall i, j | 0 <= i < j < |r| ensures r[i].product.asin != r[j].product.asin {
      assert CombinedProductId(ranked[i]) != CombinedProductId(ranked[j]);
    }
  }

  /**
   * Each hybrid entry carries, for its id, the product, the weighted score and
   * the " | "-joined reasons that the source promises.
   */
  lemma HybridEntries(products: seq<Product>, reviews: seq<Review>, productId: string, targetTitle: string, limit: int)
    ensures var content := ContentBasedRecommendations(products, productId, limit * 2);
      var collab := Collaborative.Collaborative(products, reviews, productId, targetTitle, limit * 2);
      var r := Hybrid(products, reviews, productId, targetTitle, limit);
      forall i :: 0 <= i < |r| ==>
        && r[i].product.asin in Asins(content) + Asins(collab)
        && Expected(content, collab, r[i].product.asin).Some?
        && r[i].product == Expected(content, collab, r[i].product.asin).value.product
        && r[i].score == Expected(content, collab, r[i].product.asin).value.score
        && r[i].reason == Join(Expected(content, collab, r[i].product.asin).value.reasons, ReasonSeparator)
  {
    var content := ContentBasedRecommendations(products, productId, limit * 2);
    var collab := Collaborative.Collaborative(products, reviews, productId, targetTitle, limit * 2);
    var ranked := Take(SortByScore(Values(Combine(content, collab)), CombinedScore), limit);
    CollaborativeDistinct(products, reviews, productId, targetTitle, limit * 2);
    RankedExpected(content, collab, limit);
    var r := Hybrid(products, reviews, productId, targetTitle, limit);
    assert r == Finished(ranked);
    forall i | 0 <= i < |r|
      ensures r[i].product.asin in Asins(content) + Asins(collab)
      ensures Expected(content, collab, r[i].product.asin) == Some(ranked[i])
      ensures r[i] == Finish(ranked[i])
    {
      assert ranked[i] in ranked;
    }
  }

  /** Every ranked board entry is the one Expected gives for its id. */
  lemma RankedExpected(content: seq<Recommendation>, collab: seq<Recommendation>, limit: int)
    requires DistinctKeys(collab, ProductId)
    ensures forall c :: c in Take(SortByScore(Values(Combine(content, collab)), CombinedScore), limit) ==>
      && c.product.asin in Asins(content) + Asins(collab)
      && Expected(content, collab, c.product.asin) == Some(c)
  {
    var values := Values(Combine(content, collab));
    var ranked := Take(SortByScore(values, CombinedScore), limit);
    ValuesExpected(content, collab);
    RankedShape(values, CombinedScore, limit);
    forall c | c in ranked ensures c in values {
      assert c in multiset(ranked);
    }
  }

  /**
   * Ties keep the board's order: for every score, the ranked entries of that
   * score are the first entries of that score in the board's key order, which
   * lists the content ids first and then the collaborative ids not seen yet.
   */
  lemma HybridStable(products: seq<Product>, reviews: seq<Review>, productId: string, targetTitle: string, limit: int)
    ensures var content := ContentBasedRecommendations(products, productId, limit * 2);
      var collab := Collaborative.Collaborative(products, reviews, productId, targetTitle, limit * 2);
      var board := Combine(content, collab);
      var ranked := Take(SortByScore(Values(board), CombinedScore), limit);
      && board.order == Dedup(Asins(content) + Asins(collab))
      && Hybrid(products, reviews, productId, targetTitle, limit) == Finished(ranked)
      && forall v :: WithScore(ranked, CombinedScore, v) <= WithScore(Values(board), CombinedScore, v)
  {
    var content := ContentBasedRecommendations(products, productId, limit * 2);
    var collab := Collaborative.Collaborative(products, reviews, productId, targetTitle, limit * 2);
    CombineOrder(content, collab);
    RankedStable(Values(Combine(content, collab)), CombinedScore, limit);
  }

  /**
   * A consequence of the stable order for the two sources: among entries of
   * equal score, those the content-based list recommended come before those
   * only the collaborative list recommended.
   */
  lemma HybridTies(products: seq<Product>, reviews: seq<Review>, productId: string, targetTitle: string, limit: int)
    ensures var content := ContentBasedRecommendations(products, productId, limit * 2);
      var r := Hybrid(products, reviews, productId, targetTitle, limit);
      forall i, j :: 0 <= i < j < |r| && r[i].score == r[j].score && r[j].product.asin in Asins(content) ==>
        r[i].product.asin in Asins(content)
  {
    var content := ContentBasedRecommendations(products, productId, limit * 2);
    var collab := Collaborative.Collaborative(products, reviews, productId, targetTitle, limit * 2);
    var values := Values(Combine(content, collab));
    var front := (c: Combined) => c.product.asin in Asins(content);
    ContentFirst(content, collab);
    RankedTies(values, CombinedScore, limit, front);
    var ranked := Take(SortByScore(values, CombinedScore), limit);
    var r := Hybrid(products, reviews, productId, targetTitle, limit);
    forall i, j | 0 <= i < j < |r| && r[i].score == r[j].score && r[j].product.asin in Asins(content)
      ensures r[i].product.asin in Asins(content)
    {
      assert front(ranked[j]);
    }
  }

  /**
   * The reason of each hybrid entry: the content reason alone, the
   * collaborative reason alone, or, for an id both lists recommend, the content
   * reason, " | ", then the collaborative reason, each taken from the last
   * entry of its list for that id.
   */
  lemma HybridReasons(products: seq<Product>, reviews: seq<Review>, productId: string, targetTitle: string, limit: int)
    ensures var content := ContentBasedRecommendations(products, productId, limit * 2);
      var collab := Collaborative.Collaborative(products, reviews, productId, targetTitle, limit * 2);
      var r := Hybrid(products, reviews, productId, targetTitle, limit);
      forall i :: 0 <= i < |r| ==>
        var a := r[i].product.asin;
        && (a in Asins(content) || a in Asins(collab))
        && (a in Asins(content) && a in Asins(collab) ==>
              r[i].reason == LastWith(content, a).value.reason + " | " + LastWith(collab, a).value.reason)
        && (a in Asins(content) && a !in Asins(collab) ==> r[i].reason == LastWith(content, a).value.reason)
        && (a !in Asins(content) && a in Asins(collab) ==> r[i].reason == LastWith(collab, a).value.reason)
  {
    var content := ContentBasedRecommendations(products, productId, limit * 2);
    var collab := Collaborative.Collaborative(products, reviews, productId, targetTitle, limit * 2);
    var r := Hybrid(products, reviews, productId, targetTitle, limit);
    HybridEntries(products, reviews, productId, targetTitle, limit);
    forall i | 0 <= i < |r| {
      ExpectedReason(content, collab, r[i].product.asin);
    }
  }

  /** The joined reasons of the entry promised for id a, by the lists that recommend a. */
  lemma ExpectedReason(content: seq<Recommendation>, collab: seq<Recommendation>, a: string)
    requires Expected(content, collab, a).Some?
    ensures var reason := Join(Expected(content, collab, a).value.reasons, ReasonSeparator);
      && (a in Asins(content) || a in Asins(collab))
      && (a in Asins(content) && a in Asins(collab) ==>
            reason == LastWith(content, a).value.reason + " | " + LastWith(collab, a).value.reason)
      && (a in Asins(content) && a !in Asins(collab) ==> reason == LastWith(content, a).value.reason)
      && (a !in Asins(content) && a in Asins(collab) ==> reason == LastWith(collab, a).value.reason)
  {
    if a in Asins(content) && a in Asins(collab) {
      var reasons := [LastWith(content, a).value.reason, LastWith(collab, a).value.reason];
      assert reasons[1..] == [reasons[1]];
    }
  }
}

=== FILE: ranking.dfy ===
/**
 * The tail of every recommendation pipeline: `.sort((a, b) => b.score - a.score)`
 * followed by `.slice(0, limit)`. Array.prototype.sort is stable, so the
 * sort is modelled as a stable insertion sort on a score function; the slice
 * follows JavaScript, where a negative end counts back from the length.
 */
module Ranking {

  /** End index that `slice(0, limit)` uses on an array of length n. */
  function SliceEnd(n: nat, limit: int): (e: nat)
    ensures e <= n
    ensures 0 <= limit ==> e <= limit && (e < limit ==> e == n)
    ensures limit < 0 ==> e + (-limit) >= n && (e > 0 ==> e + (-limit) == n)
  {
    if limit >= 0 then (if limit < n then limit else n)
    else if n + limit > 0 then n + limit else 0
  }

  /** `s.slice(0, limit)`: the prefix of s that ends where `SliceEnd` says. */
  function Take<T>(s: seq<T>, limit: int): (r: seq<T>)
    ensures |r| == SliceEnd(|s|, limit)
    ensures r <= s
  {
    s[..SliceEnd(|s|, limit)]
  }

  /** Scores never increase from left to right. */
  ghost predicate SortedDesc<T>(s: seq<T>, score: T -> real)
  {
    forall i, j :: 0 <= i < j < |s| ==> score(s[i]) >= score(s[j])
  }

  /** The entries whose score is exactly v, in their order in s. */
  function WithScore<T>(s: seq<T>, score: T -> real, v: real): (r: seq<T>)
    ensures |r| <= |s|
  {
    if s == [] then []
    else (if score(s[0]) == v then [s[0]] else []) + WithScore(s[1..], score, v)
  }

  /** Places x in front of the first entry of s that does not score strictly more. */
  function Insert<T>(x: T, s: seq<T>, score: T -> real): (r: seq<T>)
    ensures multiset(r) == multiset(s) + multiset{x}
  {
    if s == [] || score(x) >= score(s[0]) then [x] + s
    else
      assert s == [s[0]] + s[1..];
      [s[0]] + Insert(x, s[1..], score)
  }

  /** Inserting into a sorted list keeps it sorted. */
  lemma {:induction false} InsertSorted<T>(x: T, s: seq<T>, score: T -> real)
    requires SortedDesc(s, score)
    ensures SortedDesc(Insert(x, s, score), score)
  {
    if s == [] || score(x) >= score(s[0]) {
      var r := [x] + s;
      forall i, j | 0 <= i < j < |r| ensures score(r[i]) >= score(r[j]) {
        if i == 0 { assert r[j] == s[j - 1]; } else { assert r[i] == s[i - 1] && r[j] == s[j - 1]; }
      }
    } else {
      var tail := Insert(x, s[1..], score);
      InsertSorted(x, s[1..], score);
      forall k | 0 <= k < |tail| ensures score(tail[k]) <= score(s[0]) {
        assert tail[k] in multiset(tail);
        if tail[k] != x {
          assert tail[k] in multiset(s[1..]);
          var m :| 0 <= m < |s[1..]| && s[1..][m] == tail[k];
          assert s[m + 1] == tail[k];
        }
      }
      var r := [s[0]] + tail;
      forall i, j | 0 <= i < j < |r| ensures score(r[i]) >= score(r[j]) {
        assert r[j] == tail[j - 1];
        if i > 0 { assert r[i] == tail[i - 1]; }
      }
    }
  }

  /**
   * The stable sort `sort((a, b) => b.score - a.score)`: a permutation of s,
   * ordered by non-increasing score.
   */
  function SortByScore<T>(s: seq<T>, score: T -> real): (r: seq<T>)
    ensures multiset(r) == multiset(s)
    ensures |r| == |s|
    ensures SortedDesc(r, score)
  {
    if s == [] then []
    else
      assert s == [s[0]] + s[1..];
      InsertSorted(s[0], SortByScore(s[1..], score), score);
      Insert(s[0], SortByScore(s[1..], score), score)
  }

  /** The tail of a sorted list is sorted. */
  lemma SortedTail<T>(s: seq<T>, score: T -> real)
    requires s != [] && SortedDesc(s, score)
    ensures SortedDesc(s[1..], score)
  {
    forall i, j | 0 <= i < j < |s[1..]| ensures score(s[1..][i]) >= score(s[1..][j]) {
      assert s[1..][i] == s[i + 1] && s[1..][j] == s[j + 1];
    }
  }

  /** Inserting x into a sorted list does not reorder the entries that tie with x. */
  lemma {:induction false} InsertStable<T>(x: T, s: seq<T>, score: T -> real, v: real)
    requires SortedDesc(s, score)
    ensures WithScore(Insert(x, s, score), score, v)
         == (if score(x) == v then [x] else []) + WithScore(s, score, v)
  {
    if s == [] || score(x) >= score(s[0]) {
      assert ([x] + s)[0] == x && ([x] + s)[1..] == s;
    } else {
      var tail := Insert(x, s[1..], score);
      var head := if score(s[0]) == v then [s[0]] else [];
      SortedTail(s, score);
      InsertStable(x, s[1..], score, v);
      assert ([s[0]] + tail)[0] == s[0] && ([s[0]] + tail)[1..] == tail;
      assert WithScore(Insert(x, s, score), score, v) == head + WithScore(tail, score, v);
      assert WithScore(s, score, v) == head + WithScore(s[1..], score, v);
    }
  }

  /** The sort is stable: for every score, the entries with that score keep their order. */
  lemma {:induction false} SortStable<T>(s: seq<T>, score: T -> real, v: real)
    ensures WithScore(SortByScore(s, score), score, v) == WithScore(s, score, v)
  {
    if s != [] {
      SortStable(s[1..], score, v);
      InsertStable(s[0], SortByScore(s[1..], score), score, v);
    }
  }

  /** Cutting a list short keeps a prefix of each score class. */
  lemma {:induction false} WithScorePrefix<T>(s: seq<T>, n: nat, score: T -> real, v: real)
    requires n <= |s|
    ensures WithScore(s[..n], score, v) <= WithScore(s, score, v)
  {
    if n > 0 {
      WithScorePrefix(s[1..], n - 1, score, v);
      assert s[..n][1..] == s[1..][..n - 1];
    }
  }

  /**
   * What `sort(...).slice(0, limit)` promises: a sorted list drawn from s, as
   * long as the slice allows, and stable on ties.
   */
  lemma RankProperties<T>(s: seq<T>, score: T -> real, limit: int)
    ensures var r := Take(SortByScore(s, score), limit);
      && |r| == SliceEnd(|s|, limit)
      && multiset(r) <= multiset(s)
      && SortedDesc(r, score)
      && (forall v :: WithScore(r, score, v) <= WithScore(s, score, v))
      && (forall i, y :: 0 <= i < |r| && multiset(r)[y] < multiset(s)[y] ==> score(y) <= score(r[i]))
  {
    RankedShape(s, score, limit);
    RankedTop(s, score, limit);
  }

  /** Length, provenance, order and stability of the ranked slice. */
  lemma RankedShape<T>(s: seq<T>, score: T -> real, limit: int)
    ensures var r := Take(SortByScore(s, score), limit);
      && |r| == SliceEnd(|s|, limit)
      && multiset(r) <= multiset(s)
      && SortedDesc(r, score)
      && (forall v :: WithScore(r, score, v) <= WithScore(s, score, v))
  {
    var sorted := SortByScore(s, score);
    var r := Take(sorted, limit);
    RankedSub(s, score, limit);
    forall i, j | 0 <= i < j < |r| ensures score(r[i]) >= score(r[j]) {
      assert r[i] == sorted[i] && r[j] == sorted[j];
    }
    RankedStable(s, score, limit);
  }

  /** The slice is drawn from the sorted list, which is a permutation of s. */
  lemma RankedSub<T>(s: seq<T>, score: T -> real, limit: int)
    ensures multiset(Take(SortByScore(s, score), limit)) <= multiset(s)
  {
    var sorted := SortByScore(s, score);
    var n := SliceEnd(|s|, limit);
    assert sorted == sorted[..n] + sorted[n..];
    assert multiset(sorted) == multiset(sorted[..n]) + multiset(sorted[n..]);
  }

  /** For every score, the slice keeps a prefix of the input's entries with that score. */
  lemma RankedStable<T>(s: seq<T>, score: T -> real, limit: int)
    ensures forall v :: WithScore(Take(SortByScore(s, score), limit), score, v) <= WithScore(s, score, v)
  {
    var sorted := SortByScore(s, score);
    var n := SliceEnd(|s|, limit);
    forall v ensures WithScore(sorted[..n], score, v) <= WithScore(s, score, v) {
      WithScorePrefix(sorted, n, score, v);
      SortStable(s, score, v);
    }
  }

  /**
   * The slice keeps the best entries: whatever copy of an entry the slice
   * drops scores no more than any entry it keeps.
   */
  lemma RankedTop<T>(s: seq<T>, score: T -> real, limit: int)
    ensures var r := Take(SortByScore(s, score), limit);
      forall i, y :: 0 <= i < |r| && multiset(r)[y] < multiset(s)[y] ==> score(y) <= score(r[i])
  {
    var sorted := SortByScore(s, score);
    var n := SliceEnd(|s|, limit);
    var r := Take(sorted, limit);
    var rest := sorted[n..];
    assert sorted == r + rest;
    assert multiset(sorted) == multiset(r) + multiset(rest);
    forall i, y | 0 <= i < |r| && multiset(r)[y] < multiset(s)[y] ensures score(y) <= score(r[i]) {
      assert y in multiset(rest);
      BelowCut(sorted, score, n, i, y);
    }
  }

  /** In a sorted list, whatever lies past position n scores no more than what lies before it. */
  lemma BelowCut<T>(sorted: seq<T>, score: T -> real, n: nat, i: nat, y: T)
    requires SortedDesc(sorted, score) && i < n <= |sorted| && y in sorted[n..]
    ensures score(y) <= score(sorted[i])
  {
    var k :| 0 <= k < |sorted[n..]| && sorted[n..][k] == y;
    assert sorted[n + k] == y;
  }

  /** Every ranked entry comes from the list that was ranked. */
  lemma RankedFrom<T>(s: seq<T>, score: T -> real, limit: int)
    ensures var r := Take(SortByScore(s, score), limit);
      forall i :: 0 <= i < |r| ==> r[i] in s
  {
    var sorted := SortByScore(s, score);
    var r := Take(sorted, limit);
    forall i | 0 <= i < |r| ensures r[i] in s {
      assert r[i] == sorted[i];
      assert sorted[i] in multiset(sorted);
    }
  }

  /** No two entries of s share a key. */
  ghost predicate DistinctKeys<T, K>(s: seq<T>, key: T -> K)
  {
    forall i, j :: 0 <= i < j < |s| ==> key(s[i]) != key(s[j])
  }

  lemma {:induction false} InsertDistinct<T, K>(x: T, s: seq<T>, score: T -> real, key: T -> K)
    requires DistinctKeys(s, key)
    requires forall y :: y in s ==> key(y) != key(x)
    ensures DistinctKeys(Insert(x, s, score), key)
  {
    if s == [] || score(x) >= score(s[0]) {
      var r := [x] + s;
      forall i, j | 0 <= i < j < |r| ensures key(r[i]) != key(r[j]) {
        assert r[j] == s[j - 1];
        if i > 0 { assert r[i] == s[i - 1]; }
      }
    } else {
      var tail := Insert(x, s[1..], score);
      InsertDistinct(x, s[1..], score, key);
      var r := [s[0]] + tail;
      forall i, j | 0 <= i < j < |r| ensures key(r[i]) != key(r[j]) {
        assert r[j] == tail[j - 1];
        if i > 0 {
          assert r[i] == tail[i - 1];
        } else {
          assert r[j] in multiset(tail);
          if r[j] != x {
            var m :| 0 <= m < |s[1..]| && s[1..][m] == r[j];
            assert s[m + 1] == r[j];
          }
        }
      }
    }
  }

  /** Ranking a list with pairwise different keys keeps the keys pairwise different. */
  lemma {:induction false} SortDistinct<T, K>(s: seq<T>, score: T -> real, key: T -> K)
    requires DistinctKeys(s, key)
    ensures DistinctKeys(SortByScore(s, score), key)
  {
    if s != [] {
      SortDistinct(s[1..], score, key);
      var sorted := SortByScore(s[1..], score);
      forall y | y in sorted ensures key(y) != key(s[0]) {
        assert y in multiset(sorted);
        var m :| 0 <= m < |s[1..]| && s[1..][m] == y;
        assert s[m + 1] == y;
      }
      InsertDistinct(s[0], sorted, score, key);
    }
  }

  lemma RankedDistinct<T, K>(s: seq<T>, score: T -> real, limit: int, key: T -> K)
    requires DistinctKeys(s, key)
    ensures DistinctKeys(Take(SortByScore(s, score), limit), key)
  {
    SortDistinct(s, score, key);
  }

  /** Among entries of equal score, those that satisfy front come first. */
  ghost predicate TiesFirst<T>(s: seq<T>, score: T -> real, front: T -> bool)
  {
    forall i, j :: 0 <= i < j < |s| && score(s[i]) == score(s[j]) && front(s[j]) ==> front(s[i])
  }

  lemma {:induction false} InsertTies<T>(x: T, s: seq<T>, score: T -> real, front: T -> bool)
    requires TiesFirst(s, score, front)
    requires forall y :: y in s && score(y) == score(x) && front(y) ==> front(x)
    ensures TiesFirst(Insert(x, s, score), score, front)
  {
    if s == [] || score(x) >= score(s[0]) {
      var r := [x] + s;
      forall i, j | 0 <= i < j < |r| && score(r[i]) == score(r[j]) && front(r[j]) ensures front(r[i]) {
        assert r[j] == s[j - 1];
        if i > 0 { assert r[i] == s[i - 1]; }
      }
    } else {
      var tail := Insert(x, s[1..], score);
      assert TiesFirst(s[1..], score, front) by {
        forall i, j | 0 <= i < j < |s[1..]| ensures s[1..][i] == s[i + 1] && s[1..][j] == s[j + 1] { }
      }
      InsertTies(x, s[1..], score, front);
      var r := [s[0]] + tail;
      forall i, j | 0 <= i < j < |r| && score(r[i]) == score(r[j]) && front(r[j]) ensures front(r[i]) {
        assert r[j] == tail[j - 1];
        if i > 0 {
          assert r[i] == tail[i - 1];
        } else {
          assert r[j] in multiset(tail);
          if r[j] != x {
            var m :| 0 <= m < |s[1..]| && s[1..][m] == r[j];
            assert s[m + 1] == r[j];
          }
        }
      }
    }
  }

  /**
   * Stability, stated for any property of the entries: if, among equal
   * scores, the entries with the property come first in s, they still do
   * after the sort.
   */
  lemma {:induction false} SortTies<T>(s: seq<T>, score: T -> real, front: T -> bool)
    requires TiesFirst(s, score, front)
    ensures TiesFirst(SortByScore(s, score), score, front)
  {
    if s != [] {
      assert TiesFirst(s[1..], score, front) by {
        forall i, j | 0 <= i < j < |s[1..]| ensures s[1..][i] == s[i + 1] && s[1..][j] == s[j + 1] { }
      }
      SortTies(s[1..], score, front);
      var sorted := SortByScore(s[1..], score);
      forall y | y in sorted && score(y) == score(s[0]) && front(y) ensures front(s[0]) {
        assert y in multiset(sorted);
        var m :| 0 <= m < |s[1..]| && s[1..][m] == y;
        assert s[m + 1] == y;
      }
      InsertTies(s[0], sorted, score, front);
    }
  }

  lemma RankedTies<T>(s: seq<T>, score: T -> real, limit: int, front: T -> bool)
    requires TiesFirst(s, score, front)
    ensures TiesFirst(Take(SortByScore(s, score), limit), score, front)
  {
    SortTies(s, score, front);
  }
}

=== FILE: seqs.dfy ===
/**
 * Sequence facts shared by the pipelines: the subsequence relation and
 * `filter`, stated by what it keeps (every kept element, as often as it
 * occurs, in the original order).
 */
module Seqs {

  /** a is obtained from b by deleting some elements and keeping the order of the rest. */
  ghost predicate IsSubsequence<T>(a: seq<T>, b: seq<T>)
  {
    a == [] || (b != [] && ((a[0] == b[0] && IsSubsequence(a[1..], b[1..])) || IsSubsequence(a, b[1..])))
  }

  lemma {:induction false} SubsequenceTrans<T>(a: seq<T>, b: seq<T>, c: seq<T>)
    requires IsSubsequence(a, b) && IsSubsequence(b, c)
    ensures IsSubsequence(a, c)
    decreases |a| + |b| + |c|
  {
    if a != [] && b != [] && c != [] {
      if IsSubsequence(b, c[1..]) {
        SubsequenceTrans(a, b, c[1..]);
      } else if a[0] == b[0] && IsSubsequence(a[1..], b[1..]) {
        SubsequenceTrans(a[1..], b[1..], c[1..]);
      } else {
        SubsequenceTrans(a, b[1..], c[1..]);
      }
    }
  }

  /** Every element of a subsequence occurs in the longer list. */
  lemma {:induction false} SubsequenceIn<T>(a: seq<T>, b: seq<T>, i: nat)
    requires IsSubsequence(a, b) && i < |a|
    ensures a[i] in b
    decreases |b|
  {
    if a[0] == b[0] && IsSubsequence(a[1..], b[1..]) {
      if i > 0 { SubsequenceIn(a[1..], b[1..], i - 1); }
    } else {
      SubsequenceIn(a, b[1..], i);
    }
  }

  /** Position of the first occurrence of a in xs (|xs| when absent). */
  function FirstIndex<T(==)>(xs: seq<T>, a: T): (k: nat)
    ensures k <= |xs|
    ensures k < |xs| <==> a in xs
    ensures k < |xs| ==> xs[k] == a
  {
    if xs == [] then 0 else if xs[0] == a then 0 else 1 + FirstIndex(xs[1..], a)
  }

  lemma {:induction false} FirstIndexSnoc<T>(xs: seq<T>, x: T, a: T)
    ensures FirstIndex(xs + [x], a) == if a in xs then FirstIndex(xs, a) else if a == x then |xs| else |xs| + 1
  {
    if xs != [] {
      FirstIndexSnoc(xs[1..], x, a);
      assert (xs + [x])[1..] == xs[1..] + [x];
    }
  }

  /** A subsequence of a list whose elements first occur in xs in increasing order has the same property. */
  lemma {:induction false} SubsequenceFirstOrder<T>(a: seq<T>, b: seq<T>, xs: seq<T>)
    requires IsSubsequence(a, b)
    requires forall i, j :: 0 <= i < j < |b| ==> FirstIndex(xs, b[i]) < FirstIndex(xs, b[j])
    ensures forall i, j :: 0 <= i < j < |a| ==> FirstIndex(xs, a[i]) < FirstIndex(xs, a[j])
    decreases |b|
  {
    if a != [] {
      if a[0] == b[0] && IsSubsequence(a[1..], b[1..]) {
        SubsequenceFirstOrder(a[1..], b[1..], xs);
        forall j | 0 < j < |a| ensures FirstIndex(xs, a[0]) < FirstIndex(xs, a[j]) {
          SubsequenceIn(a[1..], b[1..], j - 1);
          var m :| 0 <= m < |b[1..]| && b[1..][m] == a[j];
          assert b[m + 1] == a[j];
        }
        forall i, j | 0 <= i < j < |a| ensures FirstIndex(xs, a[i]) < FirstIndex(xs, a[j]) {
          if i > 0 { assert a[i] == a[1..][i - 1] && a[j] == a[1..][j - 1]; }
        }
      } else {
        SubsequenceFirstOrder(a, b[1..], xs);
      }
    }
  }

  /** `s.filter(keep)`. */
  function Filter<T>(s: seq<T>, keep: T -> bool): seq<T>
  {
    if s == [] then []
    else (if keep(s[0]) then [s[0]] else []) + Filter(s[1..], keep)
  }

  /** The filtered list keeps the order of s, and holds each kept value as often as s does and no other. */
  lemma FilterSpec<T(!new)>(s: seq<T>, keep: T -> bool)
    ensures IsSubsequence(Filter(s, keep), s)
    ensures forall x :: multiset(Filter(s, keep))[x] == if keep(x) then multiset(s)[x] else 0
  {
    FilterSub(s, keep);
    FilterCount(s, keep);
  }

  /** The filtered list keeps the order of the list it came from. */
  lemma {:induction false} FilterSub<T>(s: seq<T>, keep: T -> bool)
    ensures IsSubsequence(Filter(s, keep), s)
  {
    if s != [] {
      var rest := Filter(s[1..], keep);
      FilterSub(s[1..], keep);
      if keep(s[0]) {
        var r := [s[0]] + rest;
        assert Filter(s, keep) == r;
        assert r[0] == s[0] && r[1..] == rest;
      } else {
        assert Filter(s, keep) == rest;
      }
    }
  }

  /** The filtered list holds each kept value as often as the list it came from, and nothing else. */
  lemma {:induction false} FilterCount<T(!new)>(s: seq<T>, keep: T -> bool)
    ensures forall x :: multiset(Filter(s, keep))[x] == if keep(x) then multiset(s)[x] else 0
  {
    if s != [] {
      var rest := Filter(s[1..], keep);
      FilterCount(s[1..], keep);
      assert multiset(s) == multiset{s[0]} + multiset(s[1..]) by {
        assert s == [s[0]] + s[1..];
      }
      if keep(s[0]) {
        assert multiset(Filter(s, keep)) == multiset{s[0]} + multiset(rest) by {
          assert Filter(s, keep) == [s[0]] + rest;
        }
      } else {
        assert Filter(s, keep) == rest;
      }
    }
  }

  /** Filtering a list with a given head: the head, if it is kept, then the filtered rest. */
  lemma FilterCons<T>(y: T, s: seq<T>, keep: T -> bool)
    ensures Filter([y] + s, keep) == (if keep(y) then [y] else []) + Filter(s, keep)
  {
    assert ([y] + s)[0] == y && ([y] + s)[1..] == s;
  }

  /** Filtering a list extended by one element extends the filtered list by that element, if it is kept. */
  lemma {:induction false} FilterSnoc<T>(s: seq<T>, x: T, keep: T -> bool)
    ensures Filter(s + [x], keep) == Filter(s, keep) + (if keep(x) then [x] else [])
  {
    if s == [] {
      assert [] + [x] == [x] + [];
      FilterCons(x, [], keep);
    } else {
      assert s + [x] == [s[0]] + (s[1..] + [x]);
      assert s == [s[0]] + s[1..];
      FilterCons(s[0], s[1..] + [x], keep);
      FilterCons(s[0], s[1..], keep);
      FilterSnoc(s[1..], x, keep);
    }
  }

  /** The distinct elements of xs, in the order of their first occurrence. */
  function Dedup<T(==, !new)>(xs: seq<T>): (d: seq<T>)
    ensures forall x :: x in d <==> x in xs
    ensures forall i, j :: 0 <= i < j < |d| ==> d[i] != d[j]
  {
    if xs == [] then []
    else
      var d := Dedup(xs[..|xs| - 1]);
      var x := xs[|xs| - 1];
      assert xs == xs[..|xs| - 1] + [x];
      if x in d then d else d + [x]
  }

  /** In Dedup(a + b) every element of a comes before every element that only b holds. */
  lemma {:induction false} DedupFront<T(!new)>(a: seq<T>, b: seq<T>)
    ensures forall i, j :: 0 <= i < j < |Dedup(a + b)| && Dedup(a + b)[j] in a ==> Dedup(a + b)[i] in a
  {
    if b == [] {
      assert a + b == a;
    } else {
      var b0 := b[..|b| - 1];
      DedupFront(a, b0);
      assert (a + b)[..|a + b| - 1] == a + b0;
    }
  }
}

=== FILE: text.dfy ===
/**
 * The string operations the engine and the cleaning script rely on:
 * ASCII lower-casing, JavaScript's `split(sep)` and `join(sep)`, the
 * decimal rendering of a count inside a template literal and `substring(0, n)`.
 */
module Text {

  predicate IsUpper(c: char) { 'A' <= c <= 'Z' }

  /** Lower-cases an ASCII capital; every other character is left alone. */
  function LowerChar(c: char): (d: char)
    ensures !IsUpper(d)
    ensures d == c || IsUpper(c)
  {
    if IsUpper(c) then (c as int + 32) as char else c
  }

  /** `toLowerCase()` / `str.lower()`, restricted to ASCII. */
  function Lower(s: string): (r: string)
    ensures |r| == |s|
    ensures forall i :: 0 <= i < |s| ==> r[i] == LowerChar(s[i])
  {
    seq(|s|, i requires 0 <= i < |s| => LowerChar(s[i]))
  }

  /**
   * `s.split(sep)` for a one-character separator: the pieces between
   * separators, so "" gives [""] and two adjacent separators give an empty
   * piece between them.
   */
  function Split(s: string, sep: char): (parts: seq<string>)
    ensures |parts| >= 1
    ensures forall k :: 0 <= k < |parts| ==> sep !in parts[k]
  {
    if s == [] then [[]]
    else
      var rest := Split(s[1..], sep);
      if s[0] == sep then [[]] + rest
      else [[s[0]] + rest[0]] + rest[1..]
  }

  /** `parts.join(sep)`. */
  function Join(parts: seq<string>, sep: string): string
  {
    if |parts| == 0 then ""
    else if |parts| == 1 then parts[0]
    else parts[0] + sep + Join(parts[1..], sep)
  }

  /** Joining the pieces of a split with the separator gives the original string back. */
  lemma {:induction false} JoinSplit(s: string, sep: char)
    ensures Join(Split(s, sep), [sep]) == s
  {
    if s != [] {
      var rest := Split(s[1..], sep);
      JoinSplit(s[1..], sep);
      if s[0] == sep {
        assert Split(s, sep) == [[]] + rest;
        assert Join([[]] + rest, [sep]) == [] + [sep] + Join(rest, [sep]);
        assert s == [sep] + s[1..];
      } else {
        var parts := Split(s, sep);
        assert parts == [[s[0]] + rest[0]] + rest[1..];
        if |rest| == 1 {
          assert Join(parts, [sep]) == [s[0]] + rest[0];
          assert Join(rest, [sep]) == rest[0];
        } else {
          assert parts[1..] == rest[1..];
          assert Join(parts, [sep]) == [s[0]] + rest[0] + [sep] + Join(rest[1..], [sep]);
          assert Join(rest, [sep]) == rest[0] + [sep] + Join(rest[1..], [sep]);
        }
        assert s == [s[0]] + s[1..];
      }
    }
  }

  /** Splitting a join of separator-free pieces gives the pieces back. */
  lemma {:induction false} SplitJoin(parts: seq<string>, sep: char)
    requires |parts| >= 1
    requires forall k :: 0 <= k < |parts| ==> sep !in parts[k]
    ensures Split(Join(parts, [sep]), sep) == parts
  {
    if |parts| == 1 {
      SplitPiece(parts[0], sep);
    } else {
      SplitJoin(parts[1..], sep);
      assert Join(parts, [sep]) == parts[0] + ([sep] + Join(parts[1..], [sep]));
      SplitPrefix(parts[0], [sep] + Join(parts[1..], [sep]), sep);
      var tail := Join(parts[1..], [sep]);
      assert ([sep] + tail)[1..] == tail;
      assert ([sep] + tail)[0] == sep;
      assert Split([sep] + tail, sep) == [[]] + Split(tail, sep);
      assert parts[0] + Split([sep] + tail, sep)[0] == parts[0];
      assert Split([sep] + tail, sep)[1..] == parts[1..];
      assert parts == [parts[0]] + parts[1..];
    }
  }

  /** A separator-free string splits into itself alone. */
  lemma {:induction false} SplitPiece(w: string, sep: char)
    requires sep !in w
    ensures Split(w, sep) == [w]
  {
    if w != [] {
      SplitPiece(w[1..], sep);
      assert w == [w[0]] + w[1..];
    }
  }

  /** A separator-free prefix is glued onto the first piece of what follows it. */
  lemma {:induction false} SplitPrefix(w: string, t: string, sep: char)
    requires sep !in w
    ensures Split(w + t, sep) == [w + Split(t, sep)[0]] + Split(t, sep)[1..]
  {
    if w != [] {
      var u := w[1..] + t;
      var rest := Split(u, sep);
      assert Split(w + t, sep) == [[w[0]] + rest[0]] + rest[1..] by {
        assert (w + t)[0] == w[0] && (w + t)[1..] == u;
      }
      assert [w[0]] + rest[0] == w + Split(t, sep)[0] && rest[1..] == Split(t, sep)[1..] by {
        SplitPrefix(w[1..], t, sep);
        assert w == [w[0]] + w[1..];
      }
    } else {
      var parts := Split(t, sep);
      assert w + t == t && w + parts[0] == parts[0];
      assert parts == [parts[0]] + parts[1..];
    }
  }

  /**
   * The decimal digits of n, as a template literal renders an integer: at
   * least one digit, and no leading zero unless n is 0 itself.
   */
  function NatToString(n: nat): (s: string)
    ensures |s| >= 1
    ensures forall i :: 0 <= i < |s| ==> '0' <= s[i] <= '9'
    ensures |s| == 1 || s[0] != '0'
  {
    var d := ['0' + (n % 10) as char];
    if n < 10 then d else NatToString(n / 10) + d
  }

  /** The number a string of decimal digits denotes, most significant digit first. */
  function DigitsValue(s: string): nat
    requires forall i :: 0 <= i < |s| ==> '0' <= s[i] <= '9'
  {
    if s == [] then 0
    else DigitsValue(s[..|s| - 1]) * 10 + (s[|s| - 1] as int - '0' as int)
  }

  /** Reading the rendered digits back gives the number. */
  lemma {:induction false} NatToStringValue(n: nat)
    ensures DigitsValue(NatToString(n)) == n
  {
    var d := ['0' + (n % 10) as char];
    if n >= 10 {
      NatToStringValue(n / 10);
      var t := NatToString(n / 10) + d;
      assert t[..|t| - 1] == NatToString(n / 10);
    }
  }

  /** `s.substring(0, n)` for n >= 0: the first n characters, or all of s when it is shorter. */
  function Prefix(s: string, n: nat): (r: string)
    ensures |r| == if |s| < n then |s| else n
    ensures r <= s
  {
    if |s| <= n then s else s[..n]
  }
}

=== FILE: wrappers.dfy ===
/** Option and Result, for lookups that can miss and calls that can fail. */
module Wrappers {

  datatype Option<+T> = None | Some(value: T)

  datatype Result<+R, +E> = Success(value: R) | Failure(error: E)
}
